=== FILE: README.md ===
# HttpClient.Helpers request matching, in Dafny

This project models the request-matching engine of HttpClient.Helpers, a fake
HTTP transport for unit tests. Callers register expected requests, each with a
canned response. When a request is sent, the fake handler decides which
registration answers it, or throws.

The repository holds three revisions of the handler, and each is modelled in its own module:

- `LegacyHandler` (Code/HttpClient.Helpers). A dictionary from URI string to response. It is consulted by exact key, then the `"*"` key, then the first key the URI starts with.
- `StringUriHandler` (src/WorldDomination.HttpClient.Helpers). Four chained `Where` filters over the registered `HttpMessageOptions`, then `SingleOrDefault()`.
- `UriHandler` (src/HttpClient.Helpers). One conjunctive predicate given to `SingleOrDefault`, where every unset field of an option is a wildcard.

The shared pieces each have their own module:

- `Http`: the .NET types the handlers read.
- `Headers`: the header comparison behind `HeadersAreEqual` and `HeaderExists`.
- `ContentEquality`: `HttpContentEqualityComparer`.
- `LegacyOptions`, `StringUriOptions` and `UriOptions`: the three `HttpMessageOptions` revisions and their `ToString` signatures.
- `SignatureParts`: the signature pieces common to two of those revisions.
- `OptionStore`: the `Initialize` dictionary keyed by signature.
- `Selection`: the LINQ `Where` and `SingleOrDefault` operators.
- `Registry`: `HttpClientFactory` and `MessageHandlerItem`.

Modelling choices:

- .NET null is `Option.None`.
- Exceptions are `Failure` values:
  - `MoreThanOneMatch` is the exception `SingleOrDefault` throws.
  - `NoMatch` carries the handler's message text.
  - `Preconfigured` is the caller's own exception.
- Dictionaries are insertion-ordered association lists with distinct keys. A .NET `Dictionary` with no removals enumerates in insertion order. That fixes both the `ToString` header order and which prefix key the legacy handler finds first.
- A send is a pure function. It returns the outcome and the handler afterwards. Only the picked option's `NumberOfTimesCalled` can change, and it wraps around at 2^31 − 1 as C#'s unchecked `++` does.
- Responses, exceptions and message handlers are opaque ids.
- `HttpContent` is three things: its content headers, its bytes, and the string `ReadAsStringAsync` would give.
- Header names are compared in two ways:
  - Content headers are an `HttpContentHeaders` collection. It keys names ignoring case, so no two of its names differ only in case, and `Contains` and `GetValues` ignore case (`ContentEquality.HeaderNameCaseIsIgnored`).
  - Request headers reach the comparison through `ToDictionary`, whose default comparer is ordinal, so there names are compared exactly.
- An `HttpMethod` is an RFC 7230 token (section 3.2.6), so it contains no space. `HttpMethod` equality ignores case.

Where the documentation and the code disagree, the model follows the code:

- Doc-comments in both filter-chain revisions call a `"*"` option a catch-all that is used "if none of the other requestUri's match". As written, a `"*"` option (or an option with no URI) and a specific option that both match are ambiguous, and the send throws. `StringUriHandler.WildcardAndSpecificAreAmbiguous` and `UriHandler.NoUriAndSpecificAreAmbiguous` state this. Only the legacy revision prefers an exact key over `"*"`, and only it falls back to a URI prefix.
- `ContentHeadersAreEquivalent` reads both value lists from `source`. So only the header names of two contents are ever compared (`ContentEquality.HeaderValuesAreIgnored`).
- In the string-URI revision the content filter has no wildcard. An option without content matches only requests without content (`StringUriHandler.DefaultOptionMatchesBodilessRequests`).
- `HeadersAreEqual` and `HeaderExists` need the same number of header names on both sides. A request that carries extra headers does not match a header-bearing option (`Headers.ExtraRequestHeaderPreventsMatch`). Value containment is one-directional (`Headers.ValueComparisonIsNotSymmetric`).

## Model

| member | source | states |
|---|---|---|
| `Http.IncrementWraps` | src/HttpClient.Helpers/FakeMessageHandler.cs:170-171 | `++` on the call counter is addition of one modulo 2^32 in two's complement |
| `Text.NatToStringRoundTrip` | src/WorldDomination.HttpClient.Helpers/FakeMessageHandler.cs:78 | the decimal rendering of the option count reads back as the same number |
| `Text.JoinContainsEveryPart` | src/WorldDomination.HttpClient.Helpers/FakeMessageHandler.cs:76 | every joined part occurs in `string.Join`'s result |
| `Text.BuildJoined` | src/HttpClient.Helpers/FakeMessageHandler.cs:64-74 | appending the entries to a builder with a space before every entry but the first yields their space-separated join |
| `Selection.Range` | src/WorldDomination.HttpClient.Helpers/FakeMessageHandler.cs:136 | the enumerated positions are `from`, `from + 1`, …, `to - 1`, each once and in that order |
| `Selection.Where` | src/WorldDomination.HttpClient.Helpers/FakeMessageHandler.cs:136-144 | keeps exactly the elements satisfying the filter, never more than it was given, and an increasing input stays increasing |
| `Selection.WhereFusion` | src/WorldDomination.HttpClient.Helpers/FakeMessageHandler.cs:136-144 | two chained `Where` calls keep exactly what one `Where` on the conjunction keeps, in the same order |
| `Selection.WhereCommutes` | src/WorldDomination.HttpClient.Helpers/FakeMessageHandler.cs:138-144 | the order of two conjunctive filters does not change the survivors |
| `Selection.SingleOrDefault` | src/WorldDomination.HttpClient.Helpers/FakeMessageHandler.cs:146 | `SingleOrDefault()` gives null iff nothing is left, an element of the input iff exactly one is, and throws otherwise |
| `Selection.SingleMatch` | src/HttpClient.Helpers/FakeMessageHandler.cs:140 | `SingleOrDefault(p)` gives null iff no position satisfies `p`, the position iff exactly one does, and throws iff two do |
| `Selection.SingleOfWhere` | src/WorldDomination.HttpClient.Helpers/FakeMessageHandler.cs:146 | `Where(p)` then `SingleOrDefault()` equals `SingleOrDefault(p)` |
| `Selection.SingleMatchSamePredicate` | src/HttpClient.Helpers/FakeMessageHandler.cs:140-151 | `SingleOrDefault(p)` depends only on the values of `p` at the searched positions |
| `Headers.CompareHeaders` | src/WorldDomination.HttpClient.Helpers/FakeMessageHandler.cs:180-209 | the counting-and-containment loop returns true iff the name counts agree and every expected name is present with as many values, each contained in the actual values |
| `Headers.HeadersAreEqual` | src/HttpClient.Helpers/FakeMessageHandler.cs:204-251 | two nulls are equal, one null is not, otherwise the header comparison decides |
| `Headers.HeaderExists` | src/WorldDomination.HttpClient.Helpers/FakeMessageHandler.cs:167-210 | a null source or destination throws ArgumentNull with that parameter's name, otherwise the header comparison decides |
| `Headers.MatchMeansSameNames` | src/HttpClient.Helpers/FakeMessageHandler.cs:221-233 | headers that match have exactly the same set of names |
| `Headers.ExtraRequestHeaderPreventsMatch` | src/HttpClient.Helpers/FakeMessageHandler.cs:221-225 | a request header name the option lacks prevents a match |
| `Headers.ValueComparisonIsNotSymmetric` | src/HttpClient.Helpers/FakeMessageHandler.cs:235-247 | equal value counts plus one-way containment accept `[a,a]` against `[a,b]` but not the reverse |
| `ContentEquality.RemainingHeadersEquivalent` | src/WorldDomination.HttpClient.Helpers/HttpContentEqualityComparer.cs:49-71 | the per-header loop, values read from `source` twice, succeeds iff every remaining source name occurs among the destination names, ignoring case |
| `ContentEquality.ContentHeadersAreEquivalent` | src/WorldDomination.HttpClient.Helpers/HttpContentEqualityComparer.cs:31-74 | null headers throw ArgumentNull naming the side, otherwise the result is equality of the two name sets, ignoring case |
| `ContentEquality.NamesMatchCriterion` | src/WorldDomination.HttpClient.Helpers/HttpContentEqualityComparer.cs:44-54 | with equal counts, every source name present in the destination iff the name sets are equal |
| `ContentEquality.Equals` | src/WorldDomination.HttpClient.Helpers/HttpContentEqualityComparer.cs:11-29 | both null gives equal, one null not equal, otherwise equal iff the header names agree ignoring case and the bytes are identical |
| `ContentEquality.EqualsIsEquivalence` | src/WorldDomination.HttpClient.Helpers/HttpContentEqualityComparer.cs:14-27 | the comparer is reflexive, symmetric and transitive |
| `ContentEquality.HeaderValuesAreIgnored` | src/WorldDomination.HttpClient.Helpers/HttpContentEqualityComparer.cs:56-70 | contents with the same bytes and the same header names ignoring case, in any order, compare equal, whatever their header values and strings |
| `ContentEquality.HeaderNameCaseIsIgnored` | src/WorldDomination.HttpClient.Helpers/HttpContentEqualityComparer.cs:49-54 | a content with header `X-Id` equals one with `x-id` and the same bytes |
| `ContentEquality.FoldedNamesMatchCriterion` | src/WorldDomination.HttpClient.Helpers/HttpContentEqualityComparer.cs:44-54 | with equal counts, every source name being found in the destination ignoring case is the same as equal case-folded name sets |
| `ContentEquality.FormContentEqualsStringContent` | tests/WorldDomination.HttpClient.Helpers.Tests/HttpContentEqualityComparerTests.cs:47-61 | form content `a=b&c=1` and string content with the same bytes and media type compare equal |
| `ContentEquality.BytesDecide` | src/WorldDomination.HttpClient.Helpers/HttpContentEqualityComparer.cs:24-27 | changing one byte makes otherwise identical contents unequal |
| `LegacyOptions.SetRequestUri` | Code/HttpClient.Helpers/HttpMessageOptions.cs:11-24 | a null or white-space URI throws ArgumentNull("value"), any other is stored and the method and response are kept |
| `LegacyOptions.SetHttpMethod` | Code/HttpClient.Helpers/HttpMessageOptions.cs:26-39 | a null method throws ArgumentNull("value"), any other is stored and the URI and response are kept |
| `LegacyOptions.RequestUriNeverBlank` | Code/HttpClient.Helpers/HttpMessageOptions.cs:8-24 | the default `"*"` and both setters keep the URI non-blank |
| `LegacyOptions.SignatureDeterminesMethodAndUri` | Code/HttpClient.Helpers/HttpMessageOptions.cs:43-47 | two options with the same `"{method} {uri}"` signature have the same method and URI |
| `StringUriOptions.SetRequestUri` | src/WorldDomination.HttpClient.Helpers/HttpMessageOptions.cs:18-31 | a blank URI throws ArgumentNull("value"), any other replaces the URI and nothing else |
| `StringUriOptions.SetContent` | src/WorldDomination.HttpClient.Helpers/HttpMessageOptions.cs:46-54 | the content's string is cached at assignment, `"*"` for null, other fields kept |
| `StringUriOptions.RequestUriNeverBlank` | src/WorldDomination.HttpClient.Helpers/HttpMessageOptions.cs:10-31 | the default `"*"` and the setters keep the URI non-blank |
| `StringUriOptions.DifferentMethodsDifferentSignatures` | src/WorldDomination.HttpClient.Helpers/HttpMessageOptions.cs:66-75 | options whose method texts differ never share a signature |
| `StringUriOptions.SignatureIgnoresResponseAndCount` | src/WorldDomination.HttpClient.Helpers/HttpMessageOptions.cs:61-75 | with a fresh cache, options that agree on method, URI, content string and headers have the same signature, so they collide as duplicates |
| `StringUriOptions.DefaultSignatures` | src/WorldDomination.HttpClient.Helpers/HttpMessageOptions.cs:66-75 | the default option renders as `* *` and a GET-only one as `GET *` |
| `UriOptions.SetContent` | src/HttpClient.Helpers/HttpMessageOptions.cs:33-43 | the content's string is cached at assignment, null for null, other fields kept |
| `UriOptions.DifferentMethodsDifferentSignatures` | src/HttpClient.Helpers/HttpMessageOptions.cs:55-64 | options whose method texts differ never share a signature |
| `UriOptions.SignatureIgnoresResponseAndCount` | src/HttpClient.Helpers/HttpMessageOptions.cs:50-64 | with a fresh cache, options that differ only in response or call count have the same signature |
| `UriOptions.NullAndEmptyHeadersRenderAlike` | src/HttpClient.Helpers/HttpMessageOptions.cs:59-62 | null headers and an empty header dictionary give the same signature |
| `SignatureParts.MethodText` | src/HttpClient.Helpers/HttpMessageOptions.cs:57 | the signature's first word is the method, or `*` when unset, and has no space |
| `SignatureParts.HeaderSegment` | src/HttpClient.Helpers/HttpMessageOptions.cs:59-62 | the header segment is empty iff the headers are null or empty, otherwise it starts with a space |
| `SignatureParts.HeaderSegmentListsEveryHeader` | src/HttpClient.Helpers/HttpMessageOptions.cs:59-62 | every header shows in the segment as `name|v1,v2`, its values joined by commas |
| `SignatureParts.BodySegment` | src/HttpClient.Helpers/HttpMessageOptions.cs:63 | the body segment is present iff the content is set, and then is ` body/content: ` followed by the cached string |
| `OptionStore.Initialize` | src/HttpClient.Helpers/FakeMessageHandler.cs:104-128 | a null list, an empty list, a null element and a repeated signature each fail with their own exception, and the first refused element in list order decides between the last two; otherwise the store holds the options in order with pairwise distinct signatures |
| `OptionStore.FirstRefusedAtIsUnique` | src/HttpClient.Helpers/FakeMessageHandler.cs:117-127 | only one element can be the first one refused, so the list alone decides which exception `Initialize` throws |
| `LegacyHandler.FromTable` | Code/HttpClient.Helpers/FakeMessageHandler.cs:36-49 | a null dictionary throws ArgumentNull, an empty one ArgumentOutOfRange, otherwise it is kept as given |
| `LegacyHandler.FromUri` | Code/HttpClient.Helpers/FakeMessageHandler.cs:23-29 | a one-entry dictionary, with a null key failing in `Add` |
| `LegacyHandler.FromResponse` | Code/HttpClient.Helpers/FakeMessageHandler.cs:56-62 | the response-only handler is a single `"*"` entry |
| `LegacyHandler.FromException` | Code/HttpClient.Helpers/FakeMessageHandler.cs:69-77 | a null exception throws ArgumentNull("exception"), otherwise the handler is in exception mode |
| `LegacyHandler.TryGetValue` | Code/HttpClient.Helpers/FakeMessageHandler.cs:102-103 | a lookup finds a value iff the key is present, and returns that key's value |
| `LegacyHandler.FirstPrefixKey` | Code/HttpClient.Helpers/FakeMessageHandler.cs:105-109 | the key found is one the URI starts with and no earlier key is, and none is found iff no key is a prefix |
| `LegacyHandler.Send` | Code/HttpClient.Helpers/FakeMessageHandler.cs:88-91 | in exception mode every send throws the stored exception |
| `LegacyHandler.ExactKeyWins` | Code/HttpClient.Helpers/FakeMessageHandler.cs:102 | an exact key answers, whatever `"*"` or prefix keys exist |
| `LegacyHandler.WildcardBeatsPrefix` | Code/HttpClient.Helpers/FakeMessageHandler.cs:102-103 | without an exact key, the `"*"` entry answers before any prefix key |
| `LegacyHandler.FirstPrefixKeyDecides` | Code/HttpClient.Helpers/FakeMessageHandler.cs:105-119 | with neither, the first prefix key's response answers, and a null response there is a no-match |
| `LegacyHandler.FailsExactlyWithoutAnyKey` | Code/HttpClient.Helpers/FakeMessageHandler.cs:111-119 | a send fails iff there is no exact key, no `"*"` and no prefix key with a response, and the failure is the no-match message |
| `LegacyHandler.OnlyTheUriMatters` | Code/HttpClient.Helpers/FakeMessageHandler.cs:96-103 | requests with the same URI text get the same outcome whatever their method, body and headers |
| `LegacyHandler.ResponseOnlyHandlerAnswersEverything` | Code/HttpClient.Helpers/FakeMessageHandler.cs:56-62 | the response-only handler answers every request with its response |
| `LegacyHandler.WildcardScenario` | Code/HttpClient.Helpers.Tests/FakeMessageHandlerFacts.cs:187-224 | with two URIs and `"*"` registered, an unregistered URI gets the `"*"` response and a registered one its own |
| `StringUriHandler.FromOptionsList` | src/WorldDomination.HttpClient.Helpers/FakeMessageHandler.cs:32-35 | construction succeeds iff the list is non-null, non-empty, null-free and signature-distinct, and then keeps the options in order; otherwise the first refused element decides between null-reference and duplicate |
| `StringUriHandler.FromOptions` | src/WorldDomination.HttpClient.Helpers/FakeMessageHandler.cs:25-30 | a single option is always accepted, and a null one fails on its `ToString()` |
| `StringUriHandler.FromException` | src/WorldDomination.HttpClient.Helpers/FakeMessageHandler.cs:42-50 | a null exception throws ArgumentNull("exception"), otherwise the handler is in exception mode |
| `StringUriHandler.Send` | src/WorldDomination.HttpClient.Helpers/FakeMessageHandler.cs:55-58 | in exception mode the stored exception is thrown and nothing changes |
| `StringUriHandler.ExpectedOptionIsSingleMatch` | src/WorldDomination.HttpClient.Helpers/FakeMessageHandler.cs:136-146 | the four chained filters then `SingleOrDefault()` pick exactly as one conjunctive `SingleOrDefault(p)` would |
| `StringUriHandler.IncrementCalls` | src/WorldDomination.HttpClient.Helpers/FakeMessageHandler.cs:149-165 | the picked option's counter rises by one and every other option is unchanged |
| `StringUriHandler.SendWithOneMatch` | src/WorldDomination.HttpClient.Helpers/FakeMessageHandler.cs:71-86 | with exactly one surviving option, its response is returned and only its counter rises |
| `StringUriHandler.SendWithSeveralMatches` | src/WorldDomination.HttpClient.Helpers/FakeMessageHandler.cs:146 | two survivors make the send throw, and no counter changes |
| `StringUriHandler.SendWithNoMatch` | src/WorldDomination.HttpClient.Helpers/FakeMessageHandler.cs:71-79 | no survivor throws the no-match message, and no counter changes |
| `StringUriHandler.RespondsIffExactlyOneMatch` | src/WorldDomination.HttpClient.Helpers/FakeMessageHandler.cs:129-146 | a send answers iff exactly one option passes all four filters |
| `StringUriHandler.SendKeepsSignatures` | src/WorldDomination.HttpClient.Helpers/FakeMessageHandler.cs:149-165 | a send leaves every option's signature unchanged |
| `StringUriHandler.NoMatchMessageListsEveryOption` | src/WorldDomination.HttpClient.Helpers/FakeMessageHandler.cs:76-78 | the no-match message contains the signature of every registered option |
| `StringUriHandler.DefaultOptionMatchesBodilessRequests` | src/WorldDomination.HttpClient.Helpers/FakeMessageHandler.cs:138-144 | the all-default option matches a request iff the request has no content |
| `StringUriHandler.GetOnlyOptionMatchesEveryGet` | src/WorldDomination.HttpClient.Helpers/FakeMessageHandler.cs:138-144 | a GET-only option matches every body-less GET, whatever its URI and headers |
| `StringUriHandler.WildcardAndSpecificAreAmbiguous` | src/WorldDomination.HttpClient.Helpers/FakeMessageHandler.cs:138-146 | a `"*"` option and an option for the request's URI make the send throw instead of preferring either |
| `StringUriHandler.DeleteOnlyMessage` | src/WorldDomination.HttpClient.Helpers/FakeMessageHandler.cs:76-78 | the message for one DELETE option ends `Setup: 1 responses: DELETE {url}` |
| `StringUriHandler.GetAgainstDeleteOption` | tests/HttpClient.Helpers.Tests/FakeMessageHandlerFacts.cs:340-365 | a GET against a DELETE-only option fails with exactly the message the test expects |
| `UriHandler.FromOptionsList` | src/HttpClient.Helpers/FakeMessageHandler.cs:27-30 | construction succeeds iff the list is non-null, non-empty, null-free and signature-distinct, and then keeps the options in order; otherwise the first refused element decides between null-reference and duplicate |
| `UriHandler.FromOptions` | src/HttpClient.Helpers/FakeMessageHandler.cs:23-25 | a single option is always accepted, and a null one fails on its `ToString()` |
| `UriHandler.FromException` | src/HttpClient.Helpers/FakeMessageHandler.cs:37-40 | a null exception throws ArgumentNull("exception"), otherwise the handler is in exception mode |
| `UriHandler.ContentAreEqual` | src/HttpClient.Helpers/FakeMessageHandler.cs:174-202 | two nulls are equal, one null is not, otherwise the two strings decide |
| `UriHandler.ContentAreEqualReadsOnlyText` | src/HttpClient.Helpers/FakeMessageHandler.cs:189-201 | bytes and headers are never compared, and the comparison is symmetric |
| `UriHandler.ContentComparisonIsCaseSensitive` | src/HttpClient.Helpers/FakeMessageHandler.cs:199-201 | `hi` and `HI` are different contents |
| `UriHandler.RequestOption` | src/HttpClient.Helpers/FakeMessageHandler.cs:52-59 | the option built from a request carries its URI, method, content and headers, with a fresh content cache and no calls |
| `UriHandler.SetupOptionsText` | src/HttpClient.Helpers/FakeMessageHandler.cs:64-74 | the builder loop produces the entries `"{i + 1}) {option}."` joined by single spaces |
| `UriHandler.IncrementCalls` | src/HttpClient.Helpers/FakeMessageHandler.cs:154-172 | the picked option's counter rises by one and every other option is unchanged |
| `UriHandler.Send` | src/HttpClient.Helpers/FakeMessageHandler.cs:45-48 | in exception mode the stored exception is thrown and nothing changes |
| `UriHandler.SendWithOneMatch` | src/HttpClient.Helpers/FakeMessageHandler.cs:80-87 | with exactly one match its counter rises first, then its response is returned, or a null response throws |
| `UriHandler.SendWithSeveralMatches` | src/HttpClient.Helpers/FakeMessageHandler.cs:140 | two matches make the send throw, and no counter changes |
| `UriHandler.SendWithNoMatch` | src/HttpClient.Helpers/FakeMessageHandler.cs:61-78 | no match throws the numbered no-match message, and no counter changes |
| `UriHandler.PicksIffExactlyOneMatch` | src/HttpClient.Helpers/FakeMessageHandler.cs:140-151 | a send answers iff exactly one option matches and its response is set, and a send that changes the handler had exactly one matching option |
| `UriHandler.UriWildcardAndCase` | src/HttpClient.Helpers/FakeMessageHandler.cs:140-141 | an option without a URI matches any URI, and URIs are compared ignoring case |
| `UriHandler.DefaultOptionMatchesEverything` | src/HttpClient.Helpers/FakeMessageHandler.cs:140-151 | the all-default option matches every request |
| `UriHandler.NoUriAndSpecificAreAmbiguous` | src/HttpClient.Helpers/FakeMessageHandler.cs:140-141 | an option without a URI and an option for the request's URI make the send throw |
| `UriHandler.NoMatchMessageListsEveryOption` | src/HttpClient.Helpers/FakeMessageHandler.cs:64-76 | the no-match message contains `"{i + 1}) {signature}."` for every registered option |
| `UriHandler.MatchingIgnoresCounters` | src/HttpClient.Helpers/FakeMessageHandler.cs:140-151 | options that differ only in their call counters pick alike |
| `UriHandler.SendRaisesPickedCounter` | src/HttpClient.Helpers/FakeMessageHandler.cs:80-81 | a send raises exactly the picked option's counter and keeps every option's setup |
| `UriHandler.CountedAfter` | src/HttpClient.Helpers/FakeMessageHandler.cs:170-171 | raising the picked option's counter keeps every counter at its start value plus its picks, modulo 2^32 |
| `UriHandler.CountedStep` | src/HttpClient.Helpers/FakeMessageHandler.cs:80-81 | after one more send each counter is still its start value plus its hits, modulo 2^32 |
| `UriHandler.OutcomeIgnoresCounters` | src/HttpClient.Helpers/FakeMessageHandler.cs:61-87 | options that differ only in their call counters give the same answer to every request |
| `UriHandler.AnswerIsSendAlone` | src/HttpClient.Helpers/FakeMessageHandler.cs:61-87 | entry `k` of the answers to a series is what the starting options answer to request `k` |
| `UriHandler.CountedAll` | src/HttpClient.Helpers/FakeMessageHandler.cs:170-171 | once every request is counted, each counter is its start value plus its hits, modulo 2^32, and every setup is kept |
| `UriHandler.AnsweredAsAlone` | src/HttpClient.Helpers/FakeMessageHandler.cs:61-87 | while the counters are right, the next request is answered as the starting options would answer it |
| `UriHandler.SendNext` | src/HttpClient.Helpers/FakeMessageHandler.cs:61-87 | one more send keeps the counters right and appends the answer the starting options give |
| `UriHandler.SendAll` | src/HttpClient.Helpers/FakeMessageHandler.cs:61-87 | after a series of sends each outcome is what the starting options answer to that request alone, every option keeps its setup, and its counter is its start value plus the number of requests that picked it, modulo 2^32 |
| `Registry.NewItem` | Code/HttpClient.Helpers/MessageHandlerItem.cs:8-18 | a null handler throws ArgumentNull, otherwise handler and dispose flag are stored exactly as given |
| `Registry.AddMessageHandler` | src/HttpClient.Helpers/HttpClientFactory.cs:12-34 | a null handler, a blank key and a present key each throw, otherwise exactly the new key is bound and the other keys are kept |
| `Registry.RemoveMessageHandler` | src/HttpClient.Helpers/HttpClientFactory.cs:36-44 | a blank key throws, otherwise the key is absent afterwards and the other keys are kept |
| `Registry.GetHttpClient` | src/HttpClient.Helpers/HttpClientFactory.cs:52-58 | a null handler gives a default client, otherwise a client on that handler with the given flag |
| `Registry.GetHttpClientByKey` | src/HttpClient.Helpers/HttpClientFactory.cs:65-77 | a blank key throws ArgumentNull, an unknown key KeyNotFound, otherwise the stored handler and flag are used |
| `Registry.AddThenGet` | src/HttpClient.Helpers/HttpClientFactory.cs:65-76 | fetching by a key just added uses the added handler and flag |
| `Registry.AddingTwiceFails` | src/HttpClient.Helpers/HttpClientFactory.cs:26-31 | adding a key a second time fails with the duplicate-key exception |
| `Registry.RemoveThenReAdd` | src/HttpClient.Helpers/HttpClientFactory.cs:36-44 | after a remove the key is absent, fetching it fails, and it can be added again |
| `Registry.RemoveAbsentIsNoOp` | src/HttpClient.Helpers/HttpClientFactory.cs:43 | removing an absent key leaves the registry unchanged |
| `Registry.AddThenRemove` | src/HttpClient.Helpers/HttpClientFactory.cs:33-43 | adding a fresh key and removing it gives back the original registry |
| `Registry.OtherKeysUnaffected` | src/HttpClient.Helpers/HttpClientFactory.cs:33-43 | adding or removing one key never changes what another key fetches |
| `Registry.DefaultsDisposeTheHandler` | src/HttpClient.Helpers/HttpClientFactory.cs:12-58 | with the `disposeHandler` defaults, a client made directly or fetched by a key just added disposes its handler |

## Left out

- Task plumbing. `Task`, `TaskCompletionSource` and cancellation tokens are left out. Setting `RequestMessage` on the response is modelled only through its one visible effect: a null response throws after the counter was raised.
- Reading `HttpContent`. `ReadAsStringAsync` and `ReadAsByteArrayAsync` are asynchronous stream I/O. A content carries its bytes and its string as given values, and character decoding is not modelled.
- `HttpContentEqualityComparer.GetHashCode`, because it relies on unspecified .NET string hash codes.
- Reflection in `IncrementCalls`. The property lookup always succeeds, so the counter update is modelled directly.
- .NET `Uri` normalisation. A `Uri` is a pair of given strings: `AbsoluteUri` and `ToString()`. The `Uri` revision re-parses `AbsoluteUri` into a new `Uri`, and that new `Uri` is assumed to render the same as the request's.
- Null header value lists. A header whose value list is null makes `ToString` throw in `string.Join` (src/HttpClient.Helpers/HttpMessageOptions.cs:61, src/WorldDomination.HttpClient.Helpers/HttpMessageOptions.cs:72), so `Initialize` would refuse such an option. Header values here are never null, and that failure is not modelled.
- Relative URIs. `AbsoluteUri` throws on them, so a relative request URI throws in both filter-chain revisions. In the `Uri` revision a relative option `RequestUri` makes every send throw, because src/HttpClient.Helpers/FakeMessageHandler.cs:141 reads its `AbsoluteUri`. A `Uri` here always has an absolute form, and neither exception is modelled.
- Aliasing of caller objects. The model takes every constructor argument as an immutable value, but the source keeps references:
  - The legacy handler keeps the caller's `IDictionary` itself (Code/HttpClient.Helpers/FakeMessageHandler.cs:48). Keys the caller adds or removes later change what `Send` answers.
  - That dictionary may also carry a non-ordinal key comparer. `LegacyHandler.TryGetValue` compares keys exactly, as a default `Dictionary<string, …>` does.
  - Both filter-chain handlers keep the caller's mutable `HttpMessageOptions` objects. Their `RequestUri` or `HttpMethod` can change after construction has checked the signatures for duplicates, so `OptionStore.Initialize`'s distinctness holds only at construction.
- Case-insensitive comparison of URIs, method names and content-header names is an ASCII upper-case fold rather than full Unicode ordinal case folding. The two agree on method and header names, since those are RFC 7230 tokens, which are ASCII.
- The legacy prefix test is a plain sequence prefix rather than the culture-sensitive `string.StartsWith`.
- `GetStringHttpResponseMessage`, because it only builds a library `StringContent`. Responses are opaque ids.
- Code/HttpClient.Helpers/HttpClientFactory.cs is not part of this model. It holds a static property and client construction, with no logic.
- Thread safety of the static handler registry. The registry is modelled as a single-threaded value.
- Exception messages other than the no-match texts. They are modelled as the exception kind with its parameter name or key.
- `LegacyHandler.Send`: its own contract states only the exception mode. The lookup precedence is stated by the lemmas that follow it, one rule each.
- `StringUriHandler.Send`: its own contract states only the exception mode and that no option is added or lost. The matching outcomes are stated by the `SendWith…` lemmas.
- `UriHandler.Send`: its own contract states only the exception mode and that no option is added or lost. The matching outcomes are stated by the `SendWith…` lemmas.

=== FILE: content_equality.dfy ===
/** `HttpContentEqualityComparer` (src/WorldDomination.HttpClient.Helpers), without `GetHashCode`. */
module ContentEquality {
  import opened Wrappers
  import opened Http
  import opened Headers
  import Text

  /** The names of a content-header collection, case-folded: what `Contains` tests against. */
  function FoldedNames(hs: ContentHeaders): (r: set<string>)
    ensures forall n :: n in r <==> exists j :: 0 <= j < |hs| && Text.Fold(hs[j].name) == n
  {
    var folded := FoldNames(hs);
    forall n | n in Names(folded)
      ensures exists j :: 0 <= j < |hs| && Text.Fold(hs[j].name) == n
    {
      var j := NameIndex(folded, n);
    }
    Names(folded)
  }

  /** `HttpHeaders.GetValues`: the values stored under `name`, found ignoring case. */
  function GetValues(hs: ContentHeaders, name: string): (r: seq<string>)
    requires Text.Fold(name) in FoldedNames(hs)
    ensures exists j :: 0 <= j < |hs| && Text.Fold(hs[j].name) == Text.Fold(name) && hs[j].values == r
  {
    Lookup(FoldNames(hs), Text.Fold(name)).value
  }

  /**
   * The loop of `ContentHeadersAreEquivalent` from entry `i` on. `Contains`
   * compares names ignoring case and, as written, both value lists are read
   * from the source collection, so only the presence of each source name in
   * the destination can fail it.
   */
  function RemainingHeadersEquivalent(source: ContentHeaders, destination: ContentHeaders, i: nat): (r: bool)
    requires i <= |source|
    ensures r <==> forall j :: i <= j < |source| ==> Text.Fold(source[j].name) in FoldedNames(destination)
    decreases |source| - i
  {
    if i == |source| then true
    else
      var key := source[i].name;
      if Text.Fold(key) !in FoldedNames(destination) then false
      else
        assert Text.Fold(key) in FoldedNames(source);
        var sourceValues := GetValues(source, key);
        var destinationValues := GetValues(source, key);
        if |sourceValues| != |destinationValues| then false
        else if !(forall v :: v in sourceValues ==> v in destinationValues) then false
        else RemainingHeadersEquivalent(source, destination, i + 1)
  }

  /** A content-header collection has as many case-folded names as entries. */
  lemma FoldedNamesCount(hs: ContentHeaders)
    ensures |FoldedNames(hs)| == |hs|
  {
    var folded: HeaderMap := FoldNames(hs);
    NamesCount(folded);
  }

  /**
   * `ContentHeadersAreEquivalent`: null collections throw, counts must agree,
   * then the loop; so the result is whether the two collections carry the
   * same names, ignoring case.
   */
  function ContentHeadersAreEquivalent(source: Option<ContentHeaders>, destination: Option<ContentHeaders>): (r: Result<bool, Failure>)
    ensures source.None? ==> r == Failure(ArgumentNull("source"))
    ensures source.Some? && destination.None? ==> r == Failure(ArgumentNull("destination"))
    ensures source.Some? && destination.Some? ==>
      r == Success(FoldedNames(source.value) == FoldedNames(destination.value))
  {
    if source.None? then Failure(ArgumentNull("source"))
    else if destination.None? then Failure(ArgumentNull("destination"))
    else if |source.value| != |destination.value| then
      FoldedNamesCount(source.value);
      FoldedNamesCount(destination.value);
      Success(false)
    else
      var b := RemainingHeadersEquivalent(source.value, destination.value, 0);
      FoldedNamesMatchCriterion(source.value, destination.value);
      Success(b)
  }

  /** The criterion above, for case-folded names. */
  lemma FoldedNamesMatchCriterion(source: ContentHeaders, destination: ContentHeaders)
    requires |source| == |destination|
    ensures (forall j :: 0 <= j < |source| ==> Text.Fold(source[j].name) in FoldedNames(destination))
            <==> FoldedNames(source) == FoldedNames(destination)
  {
    var fs: HeaderMap := FoldNames(source);
    var fd: HeaderMap := FoldNames(destination);
    NamesMatchCriterion(fs, fd);
    assert forall j :: 0 <= j < |source| ==> fs[j].name == Text.Fold(source[j].name);
  }

  /** With equally many entries, every source name present is the same as equal name sets. */
  lemma NamesMatchCriterion(source: HeaderMap, destination: HeaderMap)
    requires |source| == |destination|
    ensures (forall j :: 0 <= j < |source| ==> source[j].name in Names(destination))
            <==> Names(source) == Names(destination)
  {
    NamesCount(source);
    NamesCount(destination);
    if forall j :: 0 <= j < |source| ==> source[j].name in Names(destination) {
      forall n | n in Names(source)
        ensures n in Names(destination)
      {
        var j := NameIndex(source, n);
      }
      SubsetOfSameSize(Names(source), Names(destination));
    }
  }

  /** `Equals(x, y)`: null handling, then content headers, then the bytes. */
  function Equals(x: Option<Content>, y: Option<Content>): (r: bool)
    ensures x.None? && y.None? ==> r
    ensures x.None? != y.None? ==> !r
    ensures x.Some? && y.Some? ==>
      (r <==> FoldedNames(x.value.headers) == FoldedNames(y.value.headers) && x.value.bytes == y.value.bytes)
  {
    if x.None? && y.None? then true
    else if x.None? != y.None? then false
    else if !ContentHeadersAreEquivalent(Some(x.value.headers), Some(y.value.headers)).value then false
    else x.value.bytes == y.value.bytes
  }

  /** The comparer is an equivalence: reflexive, symmetric and transitive. */
  lemma EqualsIsEquivalence(x: Option<Content>, y: Option<Content>, z: Option<Content>)
    ensures Equals(x, x)
    ensures Equals(x, y) == Equals(y, x)
    ensures Equals(x, y) && Equals(y, z) ==> Equals(x, z)
  {
  }

  /**
   * Header values never make two contents unequal, and neither does the case
   * of the header names: only the names ignoring case and the bytes count.
   */
  lemma HeaderValuesAreIgnored(a: ContentHeaders, b: ContentHeaders, bytes: seq<byte>, t1: string, t2: string)
    requires FoldedNames(a) == FoldedNames(b)
    ensures Equals(Some(Content(a, bytes, t1)), Some(Content(b, bytes, t2)))
  {
  }

  /** Contents whose header names differ only in case compare equal. */
  lemma HeaderNameCaseIsIgnored()
    ensures Equals(Some(Content([Header("X-Id", ["1"])], [1], "")), Some(Content([Header("x-id", ["1"])], [1], "")))
  {
    assert Text.Fold("X-Id") == Text.Fold("x-id");
    assert FoldedNames([Header("X-Id", ["1"])]) == FoldedNames([Header("x-id", ["1"])]);
    HeaderValuesAreIgnored([Header("X-Id", ["1"])], [Header("x-id", ["1"])], [1], "", "");
  }

  const FormBody: seq<byte> := [97, 61, 98, 38, 99, 61, 49]
  const FormMediaType: string := "application/x-www-form-urlencoded"
  const FormMediaTypeUtf8: string := "application/x-www-form-urlencoded; charset=utf-8"

  /** `FormUrlEncodedContent` of a=b, c=1. */
  const FormContent: Content :=
    Content([Header("Content-Type", [FormMediaType])], FormBody, "a=b&c=1")

  /** `StringContent("a=b&c=1", UTF8, "application/x-www-form-urlencoded")`. */
  const FormStringContent: Content :=
    Content([Header("Content-Type", [FormMediaTypeUtf8])], FormBody, "a=b&c=1")

  /**
   * Form content and string content with the same bytes compare equal
   * although their Content-Type values differ.
   */
  lemma FormContentEqualsStringContent()
    ensures Equals(Some(FormContent), Some(FormStringContent))
  {
    assert FoldedNames(FormContent.headers) == FoldedNames(FormStringContent.headers);
    HeaderValuesAreIgnored(FormContent.headers, FormStringContent.headers, FormBody, "a=b&c=1", "a=b&c=1");
  }

  /** Two distinct contents with the same bytes are equal; one differing byte breaks it. */
  lemma BytesDecide(h: ContentHeaders, bytes: seq<byte>, i: nat, b: byte, t1: string, t2: string)
    requires i < |bytes| && bytes[i] != b
    ensures Equals(Some(Content(h, bytes, t1)), Some(Content(h, bytes, t2)))
    ensures !Equals(Some(Content(h, bytes, t1)), Some(Content(h, bytes[i := b], t2)))
  {
    assert bytes[i := b][i] != bytes[i];
  }
}

=== FILE: headers.dfy ===
/**
 * Request-header comparison of the filter-chain handlers: `HeadersAreEqual`
 * (src/HttpClient.Helpers) and `HeaderExists` (src/WorldDomination...),
 * which share one comparison loop.
 */
module Headers {
  import opened Wrappers
  import opened Http

  /** The header names of a dictionary. */
  function Names(hs: seq<Header>): (r: set<string>)
    ensures forall i :: 0 <= i < |hs| ==> hs[i].name in r
    decreases |hs|
  {
    if |hs| == 0 then {} else {hs[0].name} + Names(hs[1..])
  }

  /** The dictionary indexer `hs[name]`, or null when the name is absent. */
  function Lookup(hs: seq<Header>, name: string): (r: Option<seq<string>>)
    ensures r.Some? <==> name in Names(hs)
    ensures r.Some? ==> exists i :: 0 <= i < |hs| && hs[i].name == name && hs[i].values == r.value
    decreases |hs|
  {
    if |hs| == 0 then None
    else if hs[0].name == name then Some(hs[0].values)
    else Lookup(hs[1..], name)
  }

  /** A dictionary has as many distinct names as entries. */
  lemma {:induction false} NamesCount(hs: HeaderMap)
    ensures |Names(hs)| == |hs|
    decreases |hs|
  {
    if |hs| > 0 {
      var tail: HeaderMap := hs[1..];
      NamesCount(tail);
      assert forall j :: 0 <= j < |tail| ==> tail[j].name != hs[0].name by {
        forall j | 0 <= j < |tail|
          ensures tail[j].name != hs[0].name
        {
          assert tail[j] == hs[j + 1];
        }
      }
      NameAbsent(tail, hs[0].name);
    }
  }

  /** A name carried by no entry is not among the names. */
  lemma {:induction false} NameAbsent(hs: seq<Header>, name: string)
    requires forall j :: 0 <= j < |hs| ==> hs[j].name != name
    ensures name !in Names(hs)
    decreases |hs|
  {
    if |hs| > 0 {
      NameAbsent(hs[1..], name);
    }
  }

  lemma SubsetOfSameSize<T>(a: set<T>, b: set<T>)
    requires a <= b && |a| == |b|
    ensures a == b
  {
    if a != b {
      var x :| x in b && x !in a;
      assert a <= b - {x};
      assert |b - {x}| == |b| - 1;
      SubsetCardinality(a, b - {x});
    }
  }

  lemma SubsetCardinality<T>(a: set<T>, b: set<T>)
    requires a <= b
    ensures |a| <= |b|
  {
    assert b == a + (b - a);
  }

  /** Every expected value occurs among the actual ones, and there are as many of them. */
  predicate ValuesContained(expected: seq<string>, actual: seq<string>) {
    |expected| == |actual| && forall v :: v in expected ==> v in actual
  }

  /** The expected header is present with matching values. */
  predicate EntryMatches(expected: Header, actual: seq<Header>) {
    match Lookup(actual, expected.name)
    case None => false
    case Some(values) => ValuesContained(expected.values, values)
  }

  /**
   * What both revisions' header comparison decides: equally many names,
   * every expected name present, and its values contained.
   */
  predicate HeadersMatch(expected: HeaderMap, actual: HeaderMap) {
    |expected| == |actual| && forall i :: 0 <= i < |expected| ==> EntryMatches(expected[i], actual)
  }

  /** The comparison loop shared by `HeadersAreEqual` and `HeaderExists`. */
  method CompareHeaders(source: HeaderMap, destination: HeaderMap) returns (r: bool)
    ensures r <==> HeadersMatch(source, destination)
  {
    if |source| != |destination| {
      return false;
    }
    for i := 0 to |source|
      invariant forall j :: 0 <= j < i ==> EntryMatches(source[j], destination)
    {
      var key := source[i].name;
      var found := Lookup(destination, key);
      if found.None? {
        return false;
      }
      var values := found.value;
      if |source[i].values| != |values| {
        return false;
      }
      for k := 0 to |source[i].values|
        invariant forall m :: 0 <= m < k ==> source[i].values[m] in values
      {
        if source[i].values[k] !in values {
          return false;
        }
      }
    }
    return true;
  }

  /** `HeadersAreEqual` (src/HttpClient.Helpers): two nulls match, one null does not. */
  method HeadersAreEqual(source: Option<HeaderMap>, destination: Option<HeaderMap>) returns (r: bool)
    ensures source.None? && destination.None? ==> r
    ensures source.None? != destination.None? ==> !r
    ensures source.Some? && destination.Some? ==> (r <==> HeadersMatch(source.value, destination.value))
  {
    if source.None? && destination.None? {
      return true;
    }
    if source.None? || destination.None? {
      return false;
    }
    r := CompareHeaders(source.value, destination.value);
  }

  /** `HeaderExists` (src/WorldDomination...): a null argument throws. */
  method HeaderExists(source: Option<HeaderMap>, destination: Option<HeaderMap>) returns (r: Result<bool, Failure>)
    ensures source.None? ==> r == Failure(ArgumentNull("source"))
    ensures source.Some? && destination.None? ==> r == Failure(ArgumentNull("destination"))
    ensures source.Some? && destination.Some? ==> r == Success(HeadersMatch(source.value, destination.value))
  {
    if source.None? {
      return Failure(ArgumentNull("source"));
    }
    if destination.None? {
      return Failure(ArgumentNull("destination"));
    }
    var b := CompareHeaders(source.value, destination.value);
    return Success(b);
  }

  /** A match forces both sides to carry exactly the same header names. */
  lemma MatchMeansSameNames(expected: HeaderMap, actual: HeaderMap)
    requires HeadersMatch(expected, actual)
    ensures Names(expected) == Names(actual)
  {
    forall n | n in Names(expected)
      ensures n in Names(actual)
    {
      var i := NameIndex(expected, n);
      assert EntryMatches(expected[i], actual);
    }
    NamesCount(expected);
    NamesCount(actual);
    SubsetOfSameSize(Names(expected), Names(actual));
  }

  /** The position of a name that a dictionary holds. */
  function NameIndex(hs: seq<Header>, name: string): (i: nat)
    requires name in Names(hs)
    ensures i < |hs| && hs[i].name == name
    decreases |hs|
  {
    if hs[0].name == name then 0 else 1 + NameIndex(hs[1..], name)
  }

  /** A request carrying a header the option does not declare never matches it. */
  lemma ExtraRequestHeaderPreventsMatch(expected: HeaderMap, actual: HeaderMap, name: string)
    requires name in Names(actual) && name !in Names(expected)
    ensures !HeadersMatch(expected, actual)
  {
    if HeadersMatch(expected, actual) {
      MatchMeansSameNames(expected, actual);
    }
  }

  /**
   * Values are compared by count and containment, not as multisets, so the
   * relation is not symmetric: ["a", "a"] is matched by ["a", "b"], not the reverse.
   */
  lemma ValueComparisonIsNotSymmetric()
    ensures HeadersMatch([Header("h", ["a", "a"])], [Header("h", ["a", "b"])])
    ensures !HeadersMatch([Header("h", ["a", "b"])], [Header("h", ["a", "a"])])
  {
    var e: HeaderMap := [Header("h", ["a", "a"])];
    var a: HeaderMap := [Header("h", ["a", "b"])];
    assert EntryMatches(e[0], a);
    assert !EntryMatches(a[0], e) by {
      assert Lookup(e, "h") == Some(["a", "a"]);
      assert "b" in a[0].values && "b" !in ["a", "a"];
    }
  }
}

=== FILE: http.dfy ===
/**
 * The .NET HTTP types the fake handlers read: methods, URIs, header
 * dictionaries, request content and requests, plus the handlers' failures.
 */
module Http {
  import opened Wrappers
  import Text

  newtype byte = x: int | 0 <= x < 256

  /** A `tchar` of section 3.2.6 of RFC 7230: the characters of an HTTP method token. */
  predicate IsTokenChar(c: char) {
    ('a' <= c <= 'z') || ('A' <= c <= 'Z') || ('0' <= c <= '9')
    || c in "!#$%&'*+-.^_`|~"
  }

  predicate IsToken(s: string) {
    |s| > 0 && forall i :: 0 <= i < |s| ==> IsTokenChar(s[i])
  }

  /** `HttpMethod`: its constructor refuses anything that is not a token. */
  type Method = s: string | IsToken(s) witness "GET"

  const Get: Method := "GET"

  /** `HttpMethod` equality: the method names compared ignoring case. */
  predicate SameMethod(a: Method, b: Method) {
    Text.EqualsIgnoreCase(a, b)
  }

  /**
   * A `System.Uri`, reduced to the two renderings the handlers read:
   * `AbsoluteUri` and `ToString()`. Both are computed by .NET's URI parser.
   */
  datatype Uri = Uri(absoluteUri: string, text: string)

  /** One entry of an `IDictionary<string, IEnumerable<string>>` of headers. */
  datatype Header = Header(name: string, values: seq<string>)

  /** No header name occurs twice: a dictionary's keys are unique. */
  predicate DistinctNames(hs: seq<Header>) {
    forall i, j :: 0 <= i < j < |hs| ==> hs[i].name != hs[j].name
  }

  /** A header dictionary, enumerated in insertion order. */
  type HeaderMap = hs: seq<Header> | DistinctNames(hs) witness []

  /** The entries with their names case-folded, the form in which `HttpHeaders` keys them. */
  function FoldNames(hs: seq<Header>): (r: seq<Header>)
    ensures |r| == |hs|
    ensures forall i :: 0 <= i < |hs| ==> r[i] == Header(Text.Fold(hs[i].name), hs[i].values)
  {
    seq(|hs|, i requires 0 <= i < |hs| => Header(Text.Fold(hs[i].name), hs[i].values))
  }

  /**
   * `HttpContentHeaders`: a header collection whose names are compared
   * ignoring case, so no two of its names differ only in case.
   */
  type ContentHeaders = hs: seq<Header> | DistinctNames(FoldNames(hs)) witness []

  /**
   * An `HttpContent` whose streams have already been read: its content
   * headers, the bytes of `ReadAsByteArrayAsync` and the string of
   * `ReadAsStringAsync`.
   */
  datatype Content = Content(headers: ContentHeaders, bytes: seq<byte>, text: string)

  /** An outgoing `HttpRequestMessage`. */
  datatype Request = Request(httpMethod: Method, uri: Uri, content: Option<Content>, headers: HeaderMap)

  /** An `HttpResponseMessage` registered by the caller, by identity. */
  datatype ResponseId = ResponseId(id: nat)

  /** An `HttpRequestException` registered by the caller, by identity. */
  datatype ExceptionId = ExceptionId(id: nat)

  /** What the handlers and the registry throw. */
  datatype Failure =
    | ArgumentNull(paramName: string)            // ArgumentNullException
    | ArgumentOutOfRange(paramName: string)      // ArgumentOutOfRangeException
    | DuplicateOption(signature: string)         // InvalidOperationException at construction
    | NoMatch(message: string)                   // InvalidOperationException from SendAsync
    | MoreThanOneMatch                           // InvalidOperationException from SingleOrDefault
    | NullReference                              // NullReferenceException
    | DuplicateKey(key: string)                  // Exception from the handler registry
    | KeyNotFound(key: string)                   // KeyNotFoundException from a dictionary
    | Preconfigured(exception: ExceptionId)      // the caller's own HttpRequestException

  /** What one `SendAsync` call ends with. A null response is returned as null. */
  datatype SendOutcome = Responded(response: Option<ResponseId>) | Failed(failure: Failure)

  const MaxInt32: int := 0x7fff_ffff
  const MinInt32: int := -0x8000_0000

  type Int32 = x: int | MinInt32 <= x <= MaxInt32

  /** C#'s unchecked `++` on an `int`: wraps from the largest value to the smallest. */
  function Increment(x: Int32): Int32 {
    if x == MaxInt32 then MinInt32 else x + 1
  }

  /** An unbounded integer reduced to 32-bit two's complement. */
  function Wrap(x: int): (r: Int32)
    ensures (r - x) % 0x1_0000_0000 == 0
  {
    (x - MinInt32) % 0x1_0000_0000 + MinInt32
  }

  /** `++` is addition of one, taken modulo 2^32. */
  lemma IncrementWraps(x: int)
    ensures Increment(Wrap(x)) == Wrap(x + 1)
  {
    var w := Wrap(x);
    if w == MaxInt32 {
      assert (x - MinInt32) % 0x1_0000_0000 == 0x1_0000_0000 - 1;
      assert (x + 1 - MinInt32) % 0x1_0000_0000 == 0;
    } else {
      assert (x + 1 - MinInt32) % 0x1_0000_0000 == (x - MinInt32) % 0x1_0000_0000 + 1;
    }
  }

  /** A counter holding `start + hits` modulo 2^32, raised or not, holds the new hit count the same way. */
  lemma WrapStep(start: int, hits: int, raised: bool, before: Int32, after: Int32)
    requires before == Wrap(start + hits)
    requires after == if raised then Increment(before) else before
    ensures after == Wrap(start + (hits + if raised then 1 else 0))
  {
    if raised {
      IncrementWraps(start + hits);
      assert start + hits + 1 == start + (hits + 1);
    } else {
      assert start + hits == start + (hits + 0);
    }
  }
}

=== FILE: legacy_handler.dfy ===
/**
 * `FakeHttpMessageHandler` of the legacy revision (Code/HttpClient.Helpers):
 * a dictionary from request URI to response, consulted by exact key, then
 * the `"*"` key, then the first key the request URI starts with.
 */
module LegacyHandler {
  import opened Wrappers
  import opened Http
  import Text

  /** One dictionary entry; the response may be null. */
  datatype Entry = Entry(key: string, response: Option<ResponseId>)

  predicate DistinctKeys(es: seq<Entry>) {
    forall i, j :: 0 <= i < j < |es| ==> es[i].key != es[j].key
  }

  /** An `IDictionary<string, HttpResponseMessage>`, enumerated in insertion order. */
  type ResponseTable = es: seq<Entry> | DistinctKeys(es) witness []

  datatype Handler = Throwing(exception: ExceptionId) | Responding(responses: ResponseTable)

  /** The catch-all key. */
  const Wildcard: string := "*"

  /** The dictionary constructor: a null or empty dictionary is refused. */
  function FromTable(httpResponseMessages: Option<ResponseTable>): (r: Result<Handler, Failure>)
    ensures httpResponseMessages.None? ==> r == Failure(ArgumentNull("httpResponseMessages"))
    ensures httpResponseMessages.Some? && |httpResponseMessages.value| == 0 ==>
      r == Failure(ArgumentOutOfRange("httpResponseMessages"))
    ensures r.Success? <==> httpResponseMessages.Some? && |httpResponseMessages.value| > 0
    ensures r.Success? ==> r.value == Responding(httpResponseMessages.value)
  {
    if httpResponseMessages.None? then Failure(ArgumentNull("httpResponseMessages"))
    else if |httpResponseMessages.value| == 0 then Failure(ArgumentOutOfRange("httpResponseMessages"))
    else Success(Responding(httpResponseMessages.value))
  }

  /** The URI-and-response constructor: a one-entry dictionary; a null key throws in `Add`. */
  function FromUri(requestUri: Option<string>, response: Option<ResponseId>): (r: Result<Handler, Failure>)
    ensures requestUri.None? ==> r == Failure(ArgumentNull("key"))
    ensures requestUri.Some? ==> r == Success(Responding([Entry(requestUri.value, response)]))
  {
    if requestUri.None? then Failure(ArgumentNull("key"))
    else FromTable(Some([Entry(requestUri.value, response)]))
  }

  /** The response-only constructor: a single `"*"` entry. */
  function FromResponse(response: Option<ResponseId>): (r: Handler)
    ensures r.Responding? && r.responses == [Entry(Wildcard, response)]
  {
    FromTable(Some([Entry(Wildcard, response)])).value
  }

  /** The exception constructor: a null exception is refused. */
  function FromException(exception: Option<ExceptionId>): (r: Result<Handler, Failure>)
    ensures exception.None? <==> r.Failure?
    ensures r.Failure? ==> r.error == ArgumentNull("exception")
    ensures r.Success? ==> r.value == Throwing(exception.value)
  {
    if exception.None? then Failure(ArgumentNull("exception")) else Success(Throwing(exception.value))
  }

  /** `TryGetValue`: the response stored under `key`, if the key is present. */
  function TryGetValue(es: seq<Entry>, key: string): (r: Option<Option<ResponseId>>)
    ensures r.None? <==> forall i :: 0 <= i < |es| ==> es[i].key != key
    ensures r.Some? ==> exists i :: 0 <= i < |es| && es[i].key == key && es[i].response == r.value
    decreases |es|
  {
    if |es| == 0 then None
    else if es[0].key == key then Some(es[0].response)
    else TryGetValue(es[1..], key)
  }

  /** The first key, in enumeration order, that `uri` starts with. */
  function FirstPrefixKey(es: seq<Entry>, uri: string): (r: Option<nat>)
    ensures r.None? <==> forall i :: 0 <= i < |es| ==> !Text.StartsWith(uri, es[i].key)
    ensures r.Some? ==> r.value < |es| && Text.StartsWith(uri, es[r.value].key)
                        && forall j :: 0 <= j < r.value ==> !Text.StartsWith(uri, es[j].key)
    decreases |es|
  {
    if |es| == 0 then None
    else if Text.StartsWith(uri, es[0].key) then Some(0)
    else match FirstPrefixKey(es[1..], uri)
      case None => None
      case Some(k) => Some(k + 1)
  }

  /** The text of the exception thrown when nothing answers. */
  function NoMatchMessage(request: Request): string {
    "No HttpResponseMessage found for the Request Uri: " + request.uri.text
    + ". Please provide one in the FakeHttpMessageHandler constructor Or use a '*' for any request uri."
  }

  /** True when some entry of the table has exactly this key. */
  predicate HasKey(es: seq<Entry>, key: string) {
    exists i :: 0 <= i < |es| && es[i].key == key
  }

  /** `SendAsync`. The request's `Uri.ToString()` is the only thing it reads. */
  function Send(h: Handler, request: Request): (r: SendOutcome)
    ensures h.Throwing? ==> r == Failed(Preconfigured(h.exception))
  {
    match h
    case Throwing(e) => Failed(Preconfigured(e))
    case Responding(es) =>
      var requestUri := request.uri.text;
      match TryGetValue(es, requestUri)
      case Some(response) => Responded(response)
      case None =>
        match TryGetValue(es, Wildcard)
        case Some(response) => Responded(response)
        case None =>
          var response := match FirstPrefixKey(es, requestUri)
                          case Some(k) => es[k].response
                          case None => None;
          if response.None? then Failed(NoMatch(NoMatchMessage(request)))
          else Responded(response)
  }

  /** 1. An exact key wins, whatever `"*"` or prefix keys are present. */
  lemma ExactKeyWins(es: ResponseTable, request: Request, i: nat)
    requires i < |es| && es[i].key == request.uri.text
    ensures Send(Responding(es), request) == Responded(es[i].response)
  {
  }

  /** 2. Without an exact key, the `"*"` entry wins over every prefix key. */
  lemma WildcardBeatsPrefix(es: ResponseTable, request: Request, i: nat)
    requires !HasKey(es, request.uri.text)
    requires i < |es| && es[i].key == Wildcard
    ensures Send(Responding(es), request) == Responded(es[i].response)
  {
  }

  /**
   * 3. With neither, the first key in enumeration order that the URI starts
   * with decides; a null response stored under it counts as no match.
   */
  lemma FirstPrefixKeyDecides(es: ResponseTable, request: Request, k: nat)
    requires !HasKey(es, request.uri.text) && !HasKey(es, Wildcard)
    requires k < |es| && Text.StartsWith(request.uri.text, es[k].key)
    requires forall j :: 0 <= j < k ==> !Text.StartsWith(request.uri.text, es[j].key)
    ensures Send(Responding(es), request) ==
      if es[k].response.Some? then Responded(es[k].response) else Failed(NoMatch(NoMatchMessage(request)))
  {
    var uri := request.uri.text;
    assert TryGetValue(es, uri).None?;
    assert TryGetValue(es, Wildcard).None?;
    var found := FirstPrefixKey(es, uri);
    assert found.Some?;
    assert !(found.value < k) && !(k < found.value);
  }

  /** 4. The send fails exactly when no exact key, no `"*"` and no usable prefix key exist. */
  lemma FailsExactlyWithoutAnyKey(es: ResponseTable, request: Request)
    ensures Send(Responding(es), request).Failed? <==>
      && !HasKey(es, request.uri.text) && !HasKey(es, Wildcard)
      && match FirstPrefixKey(es, request.uri.text)
         case None => true
         case Some(k) => es[k].response.None?
    ensures Send(Responding(es), request).Failed? ==>
      Send(Responding(es), request) == Failed(NoMatch(NoMatchMessage(request)))
  {
  }

  /** The outcome depends on the request URI's text alone, never on method, body or headers. */
  lemma OnlyTheUriMatters(h: Handler, a: Request, b: Request)
    requires a.uri.text == b.uri.text
    ensures Send(h, a) == Send(h, b)
  {
  }

  /** The response-only handler answers every request with that response. */
  lemma ResponseOnlyHandlerAnswersEverything(response: Option<ResponseId>, request: Request)
    ensures Send(FromResponse(response), request) == Responded(response)
  {
  }

  const RequestUrl1: string := "http://www.something.com/some/website"
  const RequestUrl2: string := "http://www.something.com/another/site"

  /** Two specific URIs and `"*"`: a third URI gets the `"*"` response, a registered one its own. */
  lemma WildcardScenario(m: Method)
    ensures
      var es: ResponseTable := [Entry(RequestUrl1, Some(ResponseId(1))), Entry(RequestUrl2, Some(ResponseId(2))),
                                Entry(Wildcard, Some(ResponseId(3)))];
      && Send(Responding(es), Request(m, Uri("http://pewpew.com/", "http://pewpew.com/"), None, [])) == Responded(Some(ResponseId(3)))
      && Send(Responding(es), Request(m, Uri(RequestUrl2, RequestUrl2), None, [])) == Responded(Some(ResponseId(2)))
  {
    var es: ResponseTable := [Entry(RequestUrl1, Some(ResponseId(1))), Entry(RequestUrl2, Some(ResponseId(2))),
                              Entry(Wildcard, Some(ResponseId(3)))];
    assert es[2].key == Wildcard;
    assert es[1].key == RequestUrl2;
  }
}

=== FILE: legacy_options.dfy ===
/** `HttpMessageOptions` of the legacy revision (Code/HttpClient.Helpers). */
module LegacyOptions {
  import opened Wrappers
  import opened Http
  import Text

  datatype Options = Options(requestUri: string, httpMethod: Method, response: Option<ResponseId>)

  /** `new HttpMessageOptions()`: GET, any URI, no response yet. */
  const Default: Options := Options("*", Get, None)

  /** The setter's guard: a request URI is never null, empty or white space. */
  predicate Valid(o: Options) {
    !Text.IsNullOrWhiteSpace(Some(o.requestUri))
  }

  /** The `RequestUri` setter. */
  function SetRequestUri(o: Options, value: Option<string>): (r: Result<Options, Failure>)
    ensures r.Failure? <==> Text.IsNullOrWhiteSpace(value)
    ensures r.Failure? ==> r.error == ArgumentNull("value")
    ensures r.Success? ==> r.value.requestUri == value.value && Valid(r.value)
    ensures r.Success? ==> r.value.httpMethod == o.httpMethod && r.value.response == o.response
  {
    if Text.IsNullOrWhiteSpace(value) then Failure(ArgumentNull("value"))
    else Success(o.(requestUri := value.value))
  }

  /** The `HttpMethod` setter: null is refused, so the method is never null. */
  function SetHttpMethod(o: Options, value: Option<Method>): (r: Result<Options, Failure>)
    ensures r.Failure? <==> value.None?
    ensures r.Failure? ==> r.error == ArgumentNull("value")
    ensures r.Success? ==> r.value.httpMethod == value.value
    ensures r.Success? ==> r.value.requestUri == o.requestUri && r.value.response == o.response
  {
    if value.None? then Failure(ArgumentNull("value"))
    else Success(o.(httpMethod := value.value))
  }

  /** `ToString()`: `"{method} {uri}"`. */
  function Signature(o: Options): string {
    o.httpMethod + " " + o.requestUri
  }

  /** The defaults and both setters keep the request URI non-blank. */
  lemma RequestUriNeverBlank(o: Options, uri: Option<string>, m: Option<Method>)
    requires Valid(o)
    ensures Valid(Default)
    ensures SetRequestUri(o, uri).Success? ==> Valid(SetRequestUri(o, uri).value)
    ensures SetHttpMethod(o, m).Success? ==> Valid(SetHttpMethod(o, m).value)
  {
    assert Default.requestUri[0] == '*';
  }

  /** The signature gives back the method and the URI it was built from. */
  lemma SignatureDeterminesMethodAndUri(a: Options, b: Options)
    requires Signature(a) == Signature(b)
    ensures a.httpMethod == b.httpMethod && a.requestUri == b.requestUri
  {
    assert forall i :: 0 <= i < |a.httpMethod| ==> a.httpMethod[i] != ' ' by {
      forall i | 0 <= i < |a.httpMethod| ensures a.httpMethod[i] != ' ' {
        assert IsTokenChar(a.httpMethod[i]);
      }
    }
    assert forall i :: 0 <= i < |b.httpMethod| ==> b.httpMethod[i] != ' ' by {
      forall i | 0 <= i < |b.httpMethod| ensures b.httpMethod[i] != ' ' {
        assert IsTokenChar(b.httpMethod[i]);
      }
    }
    Text.LeadingWordIsDetermined(a.httpMethod, b.httpMethod, a.requestUri, b.requestUri);
    var n := |a.httpMethod| + 1;
    assert a.requestUri == Signature(a)[n..];
    assert b.requestUri == Signature(b)[n..];
  }
}

=== FILE: option_store.dfy ===
/**
 * `FakeHttpMessageHandler.Initialize` of both filter-chain revisions: the
 * options are added one by one to a dictionary keyed by their `ToString()`
 * signature, so a repeated signature is refused.
 */
module OptionStore {
  import opened Wrappers
  import opened Http

  /** No two options share a signature. */
  ghost predicate DistinctSignatures<O>(options: seq<O>, signature: O -> string) {
    forall i, j :: 0 <= i < j < |options| ==> signature(options[i]) != signature(options[j])
  }

  /** No element of the list is null. */
  predicate AllPresent<O>(items: seq<Option<O>>) {
    forall i :: 0 <= i < |items| ==> items[i].Some?
  }

  /** The elements of a list without nulls. */
  function Present<O>(items: seq<Option<O>>): (r: seq<O>)
    requires AllPresent(items)
    ensures |r| == |items| && forall i :: 0 <= i < |items| ==> items[i] == Some(r[i])
  {
    seq(|items|, i requires 0 <= i < |items| => items[i].value)
  }

  /** What `Initialize` accepts: no null element and no repeated signature. */
  ghost predicate Accepted<O>(items: seq<Option<O>>, signature: O -> string) {
    AllPresent(items) && DistinctSignatures(Present(items), signature)
  }

  /**
   * Element `n` is the first one `Initialize` refuses: the elements before it
   * are accepted, and adding it is not. A refused element is null or repeats
   * a signature, and which of the two decides the exception thrown.
   */
  ghost predicate FirstRefusedAt<O>(items: seq<Option<O>>, signature: O -> string, n: nat) {
    n < |items| && Accepted(items[..n], signature) && !Accepted(items[..n + 1], signature)
  }

  /** Every prefix of an accepted list is accepted. */
  lemma AcceptedPrefix<O>(items: seq<Option<O>>, signature: O -> string, k: nat, m: nat)
    requires k <= m <= |items| && Accepted(items[..m], signature)
    ensures Accepted(items[..k], signature)
  {
  }

  /** At most one element is the first refused, so the exception thrown is determined by the list. */
  lemma FirstRefusedAtIsUnique<O>(items: seq<Option<O>>, signature: O -> string, n: nat, m: nat)
    requires FirstRefusedAt(items, signature, n) && FirstRefusedAt(items, signature, m)
    ensures n == m
  {
  }

  /**
   * The constructor taking a list, then `Initialize`. A null list throws from
   * `ToArray` (parameter `source`) before `Initialize` sees it; an empty one
   * is out of range; a null element throws when its `ToString()` is called; a
   * signature already added throws; the first such element in list order
   * decides which of the two. Otherwise the store holds the options in
   * the order given.
   */
  method Initialize<O>(lotsOfOptions: Option<seq<Option<O>>>, signature: O -> string)
    returns (r: Result<seq<O>, Failure>)
    ensures lotsOfOptions.None? ==> r == Failure(ArgumentNull("source"))
    ensures lotsOfOptions.Some? && |lotsOfOptions.value| == 0 ==> r == Failure(ArgumentOutOfRange("lotsOfOptions"))
    ensures r.Failure? && r.error.ArgumentNull? ==> lotsOfOptions.None?
    ensures r.Failure? && r.error.ArgumentOutOfRange? ==> lotsOfOptions.Some? && |lotsOfOptions.value| == 0
    ensures r.Success? <==>
      lotsOfOptions.Some? && |lotsOfOptions.value| > 0 && Accepted(lotsOfOptions.value, signature)
    ensures r.Success? ==> (|r.value| == |lotsOfOptions.value|
                            && forall i :: 0 <= i < |r.value| ==> lotsOfOptions.value[i] == Some(r.value[i]))
    ensures r.Success? ==> DistinctSignatures(r.value, signature)
    ensures r.Failure? && r.error.DuplicateOption? ==>
      exists i, j :: 0 <= i < j < |lotsOfOptions.value|
        && lotsOfOptions.value[i].Some? && lotsOfOptions.value[j].Some?
        && signature(lotsOfOptions.value[i].value) == signature(lotsOfOptions.value[j].value) == r.error.signature
    ensures r.Failure? && r.error.NullReference? ==>
      exists i :: 0 <= i < |lotsOfOptions.value| && lotsOfOptions.value[i].None?
    ensures r.Failure? && (r.error.NullReference? || r.error.DuplicateOption?) ==>
      exists n: nat :: FirstRefusedAt(lotsOfOptions.value, signature, n)
        && (r.error.NullReference? <==> lotsOfOptions.value[n].None?)
    ensures r.Failure? ==> r.error.ArgumentNull? || r.error.ArgumentOutOfRange? || r.error.DuplicateOption? || r.error.NullReference?
  {
    if lotsOfOptions.None? {
      return Failure(ArgumentNull("source"));
    }
    var items := lotsOfOptions.value;
    if |items| == 0 {
      return Failure(ArgumentOutOfRange("lotsOfOptions"));
    }
    var store: seq<O> := [];
    var keys: set<string> := {};
    for n := 0 to |items|
      invariant |store| == n
      invariant forall i :: 0 <= i < n ==> items[i] == Some(store[i])
      invariant keys == set i | 0 <= i < n :: signature(store[i])
      invariant DistinctSignatures(store, signature)
      invariant AllPresent(items[..n]) && Present(items[..n]) == store
    {
      if items[n].None? {
        assert !AllPresent(items[..n + 1]) by { assert items[..n + 1][n].None?; }
        assert FirstRefusedAt(items, signature, n);
        return Failure(NullReference);
      }
      var option := items[n].value;
      var key := signature(option);
      if key in keys {
        ghost var i :| 0 <= i < n && signature(store[i]) == key;
        if AllPresent(items) {
          assert Present(items)[i] == store[i] && Present(items)[n] == option;
        }
        if AllPresent(items[..n + 1]) {
          assert Present(items[..n + 1])[i] == store[i] && Present(items[..n + 1])[n] == option;
        }
        assert FirstRefusedAt(items, signature, n);
        return Failure(DuplicateOption(key));
      }
      assert items[..n + 1] == items[..n] + [items[n]];
      store := store + [option];
      keys := keys + {key};
    }
    assert items[..|items|] == items;
    assert store == Present(items);
    return Success(store);
  }
}

=== FILE: registry.dfy ===
/**
 * `HttpClientFactory` (src/HttpClient.Helpers) and its entry record
 * `MessageHandlerItem` (Code/HttpClient.Helpers): a keyed registry of message
 * handlers from which clients are made.
 */
module Registry {
  import opened Wrappers
  import opened Http
  import Text

  /** An `HttpMessageHandler` instance, by identity. */
  datatype HandlerId = HandlerId(id: nat)

  /** `MessageHandlerItem`: the handler and the dispose flag, both fixed at construction. */
  datatype Item = Item(httpMessageHandler: HandlerId, disposeHandler: bool)

  /** The `MessageHandlerItem` constructor: a null handler is refused, the rest is stored as given. */
  function NewItem(httpMessageHandler: Option<HandlerId>, disposeHandler: bool): (r: Result<Item, Failure>)
    ensures r.Failure? <==> httpMessageHandler.None?
    ensures r.Failure? ==> r.error == ArgumentNull("httpMessageHandler")
    ensures r.Success? ==> r.value.httpMessageHandler == httpMessageHandler.value
    ensures r.Success? ==> r.value.disposeHandler == disposeHandler
  {
    if httpMessageHandler.None? then Failure(ArgumentNull("httpMessageHandler"))
    else Success(Item(httpMessageHandler.value, disposeHandler))
  }

  /** The registry: the factory's dictionary from key to item. */
  type Handlers = map<string, Item>

  /** What `new HttpClient(...)` is given. */
  datatype Client = DefaultClient | HandlerClient(handler: HandlerId, disposeHandler: bool)

  /** The default of `disposeHandler` in both `AddMessageHandler` and `GetHttpClient`. */
  const DisposeByDefault: bool := true

  /**
   * `AddMessageHandler`: a null handler, a blank key or a key already present
   * throws and leaves the registry as it was; otherwise the key is bound to a
   * new item.
   */
  function AddMessageHandler(reg: Handlers, messageHandler: Option<HandlerId>, key: Option<string>,
                             disposeHandler: bool): (r: Result<Handlers, Failure>)
    ensures messageHandler.None? ==> r == Failure(ArgumentNull("messageHandler"))
    ensures messageHandler.Some? && Text.IsNullOrWhiteSpace(key) ==> r == Failure(ArgumentNull("key"))
    ensures messageHandler.Some? && !Text.IsNullOrWhiteSpace(key) && key.value in reg ==>
      r == Failure(DuplicateKey(key.value))
    ensures r.Success? <==> messageHandler.Some? && !Text.IsNullOrWhiteSpace(key) && key.value !in reg
    ensures r.Success? ==> r.value.Keys == reg.Keys + {key.value}
    ensures r.Success? ==> r.value[key.value] == Item(messageHandler.value, disposeHandler)
    ensures r.Success? ==> forall k :: k in reg ==> r.value[k] == reg[k]
  {
    if messageHandler.None? then Failure(ArgumentNull("messageHandler"))
    else if Text.IsNullOrWhiteSpace(key) then Failure(ArgumentNull("key"))
    else if key.value in reg then Failure(DuplicateKey(key.value))
    else
      match NewItem(messageHandler, disposeHandler)
      case Success(item) => Success(reg[key.value := item])
      case Failure(e) => Failure(e)
  }

  /** `RemoveMessageHandler`: a blank key throws; an absent key is silently ignored. */
  function RemoveMessageHandler(reg: Handlers, key: Option<string>): (r: Result<Handlers, Failure>)
    ensures r.Failure? <==> Text.IsNullOrWhiteSpace(key)
    ensures r.Failure? ==> r.error == ArgumentNull("key")
    ensures r.Success? ==> r.value.Keys == reg.Keys - {key.value}
    ensures r.Success? ==> forall k :: k in r.value ==> r.value[k] == reg[k]
  {
    if Text.IsNullOrWhiteSpace(key) then Failure(ArgumentNull("key"))
    else Success(reg - {key.value})
  }

  /** `GetHttpClient(handler, disposeHandler)`: a plain client for a null handler. */
  function GetHttpClient(httpMessageHandler: Option<HandlerId>, disposeHandler: bool): (r: Client)
    ensures r.DefaultClient? <==> httpMessageHandler.None?
    ensures r.HandlerClient? ==> r.handler == httpMessageHandler.value && r.disposeHandler == disposeHandler
  {
    if httpMessageHandler.Some? then HandlerClient(httpMessageHandler.value, disposeHandler) else DefaultClient
  }

  /**
   * `GetHttpClient(messageHandlerKey)`: a blank key throws, an unknown key
   * fails in the dictionary indexer, otherwise the stored handler and flag.
   */
  function GetHttpClientByKey(reg: Handlers, messageHandlerKey: Option<string>): (r: Result<Client, Failure>)
    ensures Text.IsNullOrWhiteSpace(messageHandlerKey) ==> r == Failure(ArgumentNull("messageHandlerKey"))
    ensures !Text.IsNullOrWhiteSpace(messageHandlerKey) && messageHandlerKey.value !in reg ==>
      r == Failure(KeyNotFound(messageHandlerKey.value))
    ensures r.Success? <==> !Text.IsNullOrWhiteSpace(messageHandlerKey) && messageHandlerKey.value in reg
    ensures r.Success? ==>
      var item := reg[messageHandlerKey.value];
      r.value == HandlerClient(item.httpMessageHandler, item.disposeHandler)
  {
    if Text.IsNullOrWhiteSpace(messageHandlerKey) then Failure(ArgumentNull("messageHandlerKey"))
    else if messageHandlerKey.value !in reg then Failure(KeyNotFound(messageHandlerKey.value))
    else
      var item := reg[messageHandlerKey.value];
      Success(GetHttpClient(Some(item.httpMessageHandler), item.disposeHandler))
  }

  /** A client fetched by a key just added uses the added handler and flag. */
  lemma AddThenGet(reg: Handlers, handler: HandlerId, key: string, disposeHandler: bool)
    requires !Text.IsNullOrWhiteSpace(Some(key)) && key !in reg
    ensures AddMessageHandler(reg, Some(handler), Some(key), disposeHandler).Success?
    ensures GetHttpClientByKey(AddMessageHandler(reg, Some(handler), Some(key), disposeHandler).value, Some(key))
            == Success(HandlerClient(handler, disposeHandler))
  {
  }

  /** Adding under a key already present fails and changes nothing. */
  lemma AddingTwiceFails(reg: Handlers, first: HandlerId, second: HandlerId, key: string, d1: bool, d2: bool)
    requires !Text.IsNullOrWhiteSpace(Some(key)) && key !in reg
    ensures var added := AddMessageHandler(reg, Some(first), Some(key), d1).value;
      AddMessageHandler(added, Some(second), Some(key), d2) == Failure(DuplicateKey(key))
  {
  }

  /** After a remove the key is gone, fetching by it fails, and it can be added again. */
  lemma RemoveThenReAdd(reg: Handlers, handler: HandlerId, key: string, disposeHandler: bool)
    requires !Text.IsNullOrWhiteSpace(Some(key))
    ensures var removed := RemoveMessageHandler(reg, Some(key)).value;
      && key !in removed
      && GetHttpClientByKey(removed, Some(key)) == Failure(KeyNotFound(key))
      && AddMessageHandler(removed, Some(handler), Some(key), disposeHandler).Success?
  {
  }

  /** Removing an absent key leaves the registry as it was. */
  lemma RemoveAbsentIsNoOp(reg: Handlers, key: string)
    requires !Text.IsNullOrWhiteSpace(Some(key)) && key !in reg
    ensures RemoveMessageHandler(reg, Some(key)) == Success(reg)
  {
    assert reg - {key} == reg;
  }

  /** Adding a fresh key and removing it again gives back the registry. */
  lemma AddThenRemove(reg: Handlers, handler: HandlerId, key: string, disposeHandler: bool)
    requires !Text.IsNullOrWhiteSpace(Some(key)) && key !in reg
    ensures RemoveMessageHandler(AddMessageHandler(reg, Some(handler), Some(key), disposeHandler).value, Some(key))
            == Success(reg)
  {
    assert reg[key := Item(handler, disposeHandler)] - {key} == reg;
  }

  /** Adding and removing one key never changes what another key fetches. */
  lemma OtherKeysUnaffected(reg: Handlers, handler: HandlerId, key: string, other: string, disposeHandler: bool)
    requires !Text.IsNullOrWhiteSpace(Some(key)) && key !in reg && other != key
    ensures GetHttpClientByKey(AddMessageHandler(reg, Some(handler), Some(key), disposeHandler).value, Some(other))
            == GetHttpClientByKey(reg, Some(other))
    ensures GetHttpClientByKey(RemoveMessageHandler(reg, Some(key)).value, Some(other))
            == GetHttpClientByKey(reg, Some(other))
  {
  }

  /** Left at their defaults, both `AddMessageHandler` and `GetHttpClient` make the client dispose the handler. */
  lemma DefaultsDisposeTheHandler(reg: Handlers, handler: HandlerId, key: string)
    requires !Text.IsNullOrWhiteSpace(Some(key)) && key !in reg
    ensures GetHttpClient(Some(handler), DisposeByDefault) == HandlerClient(handler, true)
    ensures GetHttpClientByKey(AddMessageHandler(reg, Some(handler), Some(key), DisposeByDefault).value, Some(key))
            == Success(HandlerClient(handler, true))
  {
  }
}

=== FILE: selection.dfy ===
/**
 * The LINQ operators the filter-chain handlers use, over the positions of the
 * registered options: `Where` and the two forms of `SingleOrDefault`.
 */
module Selection {

  /** What `SingleOrDefault` produces: null, the single element, or an exception. */
  datatype Pick = NoneFound | One(index: nat) | Several

  /** The positions `from`, `from + 1`, ..., `to - 1`, in order. */
  function Range(from: nat, to: nat): (r: seq<nat>)
    ensures |r| == if from <= to then to - from else 0
    ensures forall k :: 0 <= k < |r| ==> r[k] == from + k
    ensures forall x :: x in r <==> (from <= x < to)
    decreases (to as int) - (from as int)
  {
    if from >= to then [] else [from] + Range(from + 1, to)
  }

  /** The elements are strictly increasing, as `Range` gives them. */
  predicate Increasing(xs: seq<nat>) {
    forall i, j :: 0 <= i < j < |xs| ==> xs[i] < xs[j]
  }

  /** `Enumerable.Where`: the elements satisfying `p`, in their original order. */
  function Where(xs: seq<nat>, p: nat -> bool): (r: seq<nat>)
    ensures forall x :: x in r <==> x in xs && p(x)
    ensures |r| <= |xs|
    ensures Increasing(xs) ==> Increasing(r)
    decreases |xs|
  {
    if |xs| == 0 then []
    else if p(xs[0]) then
      var rest := Where(xs[1..], p);
      assert Increasing(xs) ==> forall k :: 0 <= k < |rest| ==> xs[0] < rest[k] by {
        if Increasing(xs) {
          forall k | 0 <= k < |rest| ensures xs[0] < rest[k] {
            assert rest[k] in rest;
            var m :| 0 <= m < |xs[1..]| && xs[1..][m] == rest[k];
            assert xs[m + 1] == rest[k];
          }
        }
      }
      [xs[0]] + rest
    else Where(xs[1..], p)
  }

  /** Two `Where` calls in a row filter by the conjunction of their predicates. */
  lemma {:induction false} WhereFusion(xs: seq<nat>, p: nat -> bool, q: nat -> bool, both: nat -> bool)
    requires forall x :: both(x) == (p(x) && q(x))
    ensures Where(Where(xs, p), q) == Where(xs, both)
    decreases |xs|
  {
    if |xs| > 0 {
      WhereFusion(xs[1..], p, q, both);
      if p(xs[0]) {
        assert Where(xs, p) == [xs[0]] + Where(xs[1..], p);
        assert Where(xs, p)[1..] == Where(xs[1..], p);
      }
    }
  }

  /** So the order in which conjunctive filters run does not change the survivors. */
  lemma WhereCommutes(xs: seq<nat>, p: nat -> bool, q: nat -> bool)
    ensures Where(Where(xs, p), q) == Where(Where(xs, q), p)
  {
    var both := (x: nat) => p(x) && q(x);
    var both' := (x: nat) => q(x) && p(x);
    WhereFusion(xs, p, q, both);
    WhereFusion(xs, q, p, both');
    WhereSamePredicate(xs, both, both');
  }

  lemma {:induction false} WhereSamePredicate(xs: seq<nat>, p: nat -> bool, q: nat -> bool)
    requires forall x :: p(x) == q(x)
    ensures Where(xs, p) == Where(xs, q)
    decreases |xs|
  {
    if |xs| > 0 {
      WhereSamePredicate(xs[1..], p, q);
    }
  }

  /** `SingleOrDefault()` without a predicate. */
  function SingleOrDefault(xs: seq<nat>): (r: Pick)
    ensures r.NoneFound? <==> |xs| == 0
    ensures r.One? <==> |xs| == 1
    ensures r.One? ==> r.index in xs
  {
    if |xs| == 0 then NoneFound
    else if |xs| == 1 then One(xs[0])
    else Several
  }

  /**
   * `SingleOrDefault(p)` over the positions `from` to `to - 1`: null when none
   * satisfies `p`, the position when exactly one does, an exception otherwise.
   */
  function SingleMatch(from: nat, to: nat, p: nat -> bool): (r: Pick)
    requires from <= to
    ensures r.NoneFound? <==> forall i :: from <= i < to ==> !p(i)
    ensures r.One? ==> from <= r.index < to && p(r.index)
                       && forall j :: from <= j < to && j != r.index ==> !p(j)
    ensures r.Several? <==> (exists i, j :: from <= i < j < to && p(i) && p(j))
    decreases (to as int) - (from as int)
  {
    if from == to then NoneFound
    else match SingleMatch(from + 1, to, p)
      case NoneFound => if p(from) then One(from) else NoneFound
      case One(i) => if p(from) then Several else One(i)
      case Several => Several
  }

  /** Filtering first and then asking for the single element is `SingleOrDefault(p)`. */
  lemma {:induction false} SingleOfWhere(from: nat, to: nat, p: nat -> bool)
    requires from <= to
    ensures SingleOrDefault(Where(Range(from, to), p)) == SingleMatch(from, to, p)
    decreases (to as int) - (from as int)
  {
    if from < to {
      SingleOfWhere(from + 1, to, p);
      assert Range(from, to)[1..] == Range(from + 1, to);
    }
  }

  /** `SingleOrDefault(p)` depends only on the values `p` takes on the positions searched. */
  lemma {:induction false} SingleMatchSamePredicate(from: nat, to: nat, p: nat -> bool, q: nat -> bool)
    requires from <= to
    requires forall i :: from <= i < to ==> p(i) == q(i)
    ensures SingleMatch(from, to, p) == SingleMatch(from, to, q)
    decreases (to as int) - (from as int)
  {
    if from < to {
      SingleMatchSamePredicate(from + 1, to, p, q);
    }
  }
}

=== FILE: signature_parts.dfy ===
/**
 * The pieces of `HttpMessageOptions.ToString` shared by the two filter-chain
 * revisions: the method text, the body segment and the header segment.
 */
module SignatureParts {
  import opened Wrappers
  import opened Http
  import Text

  /** The text that stands for "any" in an options signature. */
  const AnyValue: string := "*"

  /** `HttpMethod?.ToString() ?? "*"`: a token, so it never contains a space. */
  function MethodText(m: Option<Method>): (r: string)
    ensures forall i :: 0 <= i < |r| ==> r[i] != ' '
    ensures m.Some? ==> r == m.value
    ensures m.None? ==> r == AnyValue
  {
    if m.Some? then m.value else AnyValue
  }

  /** `$"{x.Key}|{string.Join(",", x.Value)}"`. */
  function HeaderText(h: Header): string {
    h.name + "|" + Text.Join(",", h.values)
  }

  function HeaderTexts(hs: seq<Header>): (r: seq<string>)
    ensures |r| == |hs|
  {
    seq(|hs|, i requires 0 <= i < |hs| => HeaderText(hs[i]))
  }

  /** `" " + string.Join(":", ...)` when there are headers, nothing otherwise. */
  function HeaderSegment(hs: Option<HeaderMap>): (r: string)
    ensures r == "" <==> hs.None? || |hs.value| == 0
    ensures r != "" ==> r[0] == ' '
  {
    if hs.Some? && |hs.value| > 0 then " " + Text.Join(":", HeaderTexts(hs.value)) else ""
  }

  /**
   * `" body/content: {serialised}"` when content is set, nothing otherwise.
   * A null cached string interpolates as the empty string.
   */
  function BodySegment(content: Option<Content>, serialized: Option<string>): (r: string)
    ensures r == "" <==> content.None?
    ensures content.Some? && serialized.Some? ==> r == " body/content: " + serialized.value
  {
    if content.Some? then " body/content: " + (if serialized.Some? then serialized.value else "") else ""
  }

  /** Every header shows in the segment as `name|v1,v2,...`, the entries being joined by `:`. */
  lemma HeaderSegmentListsEveryHeader(hs: HeaderMap, i: nat)
    requires i < |hs|
    ensures Text.Contains(HeaderSegment(Some(hs)), hs[i].name + "|" + Text.Join(",", hs[i].values))
  {
    Text.JoinContainsEveryPart(":", HeaderTexts(hs), i);
    Text.ContainsInMiddle(" ", Text.Join(":", HeaderTexts(hs)), "", HeaderTexts(hs)[i]);
    assert " " + Text.Join(":", HeaderTexts(hs)) + "" == HeaderSegment(Some(hs));
  }
}

=== FILE: string_uri_handler.dfy ===
/**
 * `FakeHttpMessageHandler` of the string-URI revision
 * (src/WorldDomination.HttpClient.Helpers): the registered options are passed
 * through four `Where` filters and the single survivor answers the request.
 */
module StringUriHandler {
  import opened Wrappers
  import opened Http
  import Text
  import Headers
  import ContentEquality
  import opened Selection
  import StringUriOptions
  import OptionStore

  type Options = StringUriOptions.Options

  /** Either the exception mode or the registered options, in registration order. */
  datatype Handler = Throwing(exception: ExceptionId) | Serving(options: seq<Options>)

  /** What a send ends with, and the handler afterwards (only call counters can change). */
  datatype Sent = Sent(outcome: SendOutcome, handler: Handler)

  /** The constructor taking a list of options, then `Initialize`. */
  method FromOptionsList(lotsOfOptions: Option<seq<Option<Options>>>) returns (r: Result<Handler, Failure>)
    ensures lotsOfOptions.None? ==> r == Failure(ArgumentNull("source"))
    ensures lotsOfOptions.Some? && |lotsOfOptions.value| == 0 ==> r == Failure(ArgumentOutOfRange("lotsOfOptions"))
    ensures r.Success? <==>
      lotsOfOptions.Some? && |lotsOfOptions.value| > 0
      && OptionStore.Accepted(lotsOfOptions.value, StringUriOptions.Signature)
    ensures r.Success? ==> r.value.Serving? && |r.value.options| == |lotsOfOptions.value|
    ensures r.Success? ==> forall i :: 0 <= i < |r.value.options| ==> lotsOfOptions.value[i] == Some(r.value.options[i])
    ensures r.Success? ==> OptionStore.DistinctSignatures(r.value.options, StringUriOptions.Signature)
    ensures r.Failure? && r.error.DuplicateOption? ==>
      exists i, j :: 0 <= i < j < |lotsOfOptions.value|
        && lotsOfOptions.value[i].Some? && lotsOfOptions.value[j].Some?
        && StringUriOptions.Signature(lotsOfOptions.value[i].value) == StringUriOptions.Signature(lotsOfOptions.value[j].value)
    ensures r.Failure? && r.error.NullReference? ==>
      exists i :: 0 <= i < |lotsOfOptions.value| && lotsOfOptions.value[i].None?
    ensures r.Failure? && r.error.ArgumentNull? ==> lotsOfOptions.None?
    ensures r.Failure? && r.error.ArgumentOutOfRange? ==> lotsOfOptions.Some? && |lotsOfOptions.value| == 0
    ensures r.Failure? && (r.error.NullReference? || r.error.DuplicateOption?) ==>
      exists n: nat :: OptionStore.FirstRefusedAt(lotsOfOptions.value, StringUriOptions.Signature, n)
        && (r.error.NullReference? <==> lotsOfOptions.value[n].None?)
    ensures r.Failure? ==> r.error.ArgumentNull? || r.error.ArgumentOutOfRange? || r.error.DuplicateOption? || r.error.NullReference?
  {
    var store := OptionStore.Initialize(lotsOfOptions, StringUriOptions.Signature);
    if store.Failure? {
      return Failure(store.error);
    }
    return Success(Serving(store.value));
  }

  /** The single-option constructor: a one-element list; a null option fails on its `ToString()`. */
  method FromOptions(options: Option<Options>) returns (r: Result<Handler, Failure>)
    ensures options.None? ==> r == Failure(NullReference)
    ensures options.Some? ==> r == Success(Serving([options.value]))
  {
    r := FromOptionsList(Some([options]));
    if options.Some? {
      assert r.Success? by {
        assert OptionStore.Accepted([options], StringUriOptions.Signature);
      }
      assert r.value.options[0] == options.value;
      assert r.value.options == [options.value];
    } else {
      assert [options][0].None?;
      assert r.Failure?;
      assert !r.error.DuplicateOption?;
    }
  }

  /** The exception constructor: a null exception is refused. */
  function FromException(exception: Option<ExceptionId>): (r: Result<Handler, Failure>)
    ensures exception.None? <==> r.Failure?
    ensures r.Failure? ==> r.error == ArgumentNull("exception")
    ensures r.Success? ==> r.value == Throwing(exception.value)
  {
    if exception.None? then Failure(ArgumentNull("exception")) else Success(Throwing(exception.value))
  }

  /*
   * The option built from the request has the request's `AbsoluteUri`,
   * method, content and headers; the filters below read those directly.
   */

  /** First filter: the same URI text (ordinal), or the option's URI is `"*"`. */
  predicate UriFilter(x: Options, request: Request) {
    x.requestUri == request.uri.absoluteUri || x.requestUri == StringUriOptions.NoValue
  }

  /** Second filter: `HttpMethod ==` (names compared ignoring case), or the option's method is null. */
  predicate MethodFilter(x: Options, request: Request) {
    x.httpMethod.None? || SameMethod(x.httpMethod.value, request.httpMethod)
  }

  /** Third filter: always the content comparer, so a null option content matches only a null body. */
  predicate ContentFilter(x: Options, request: Request) {
    ContentEquality.Equals(x.content, request.content)
  }

  /** Fourth filter: no headers, an empty header dictionary, or `HeaderExists`. */
  predicate HeaderFilter(x: Options, request: Request) {
    x.headers.None? || |x.headers.value| == 0 || Headers.HeadersMatch(x.headers.value, request.headers)
  }

  /** An option survives the whole chain. */
  predicate Matches(x: Options, request: Request) {
    UriFilter(x, request) && MethodFilter(x, request) && ContentFilter(x, request) && HeaderFilter(x, request)
  }

  /** The four filters as predicates on positions in the store. */
  function ByUri(opts: seq<Options>, request: Request): nat -> bool {
    (i: nat) => i < |opts| && UriFilter(opts[i], request)
  }

  function ByMethod(opts: seq<Options>, request: Request): nat -> bool {
    (i: nat) => i < |opts| && MethodFilter(opts[i], request)
  }

  function ByContent(opts: seq<Options>, request: Request): nat -> bool {
    (i: nat) => i < |opts| && ContentFilter(opts[i], request)
  }

  function ByHeaders(opts: seq<Options>, request: Request): nat -> bool {
    (i: nat) => i < |opts| && HeaderFilter(opts[i], request)
  }

  /** The position of a matching option. */
  function MatchAt(opts: seq<Options>, request: Request): nat -> bool {
    (i: nat) => i < |opts| && Matches(opts[i], request)
  }

  /** `GetExpectedOption`: four `Where` calls in a row, then `SingleOrDefault()`. */
  function ExpectedOption(opts: seq<Options>, request: Request): (r: Pick)
    ensures r.One? ==> r.index < |opts|
  {
    var byUri := Where(Range(0, |opts|), ByUri(opts, request));
    var byMethod := Where(byUri, ByMethod(opts, request));
    var byContent := Where(byMethod, ByContent(opts, request));
    var byHeaders := Where(byContent, ByHeaders(opts, request));
    assert forall x :: x in byHeaders ==> x < |opts|;
    SingleOrDefault(byHeaders)
  }

  /**
   * The chain of filters selects as one conjunctive predicate would: the
   * result is null when no option matches, the position of the only one that
   * does, or an exception when two do.
   */
  lemma ExpectedOptionIsSingleMatch(opts: seq<Options>, request: Request)
    ensures ExpectedOption(opts, request) == SingleMatch(0, |opts|, MatchAt(opts, request))
  {
    var all := Range(0, |opts|);
    var u, m, c, h := ByUri(opts, request), ByMethod(opts, request), ByContent(opts, request), ByHeaders(opts, request);
    var um := (i: nat) => i < |opts| && UriFilter(opts[i], request) && MethodFilter(opts[i], request);
    var umc := (i: nat) => i < |opts| && UriFilter(opts[i], request) && MethodFilter(opts[i], request)
                           && ContentFilter(opts[i], request);
    var all4 := MatchAt(opts, request);
    WhereFusion(all, u, m, um);
    WhereFusion(all, um, c, umc);
    WhereFusion(all, umc, h, all4);
    SingleOfWhere(0, |opts|, all4);
  }

  /** `string.Join(";", _lotsOfOptions.Values)`: each option's signature. */
  function Signatures(opts: seq<Options>): (r: seq<string>)
    ensures |r| == |opts|
    ensures forall i :: 0 <= i < |opts| ==> r[i] == StringUriOptions.Signature(opts[i])
  {
    seq(|opts|, i requires 0 <= i < |opts| => StringUriOptions.Signature(opts[i]))
  }

  /** The count in the message, or `"- no responses -"` for an empty store. */
  function SetupCount(opts: seq<Options>): string {
    if |opts| == 0 then "- no responses -" else Text.NatToString(|opts|)
  }

  const MessageStart: string := "No HttpResponseMessage found for the Request Uri: "
  const MessageAdvice: string :=
    ". Please provide one in the FakeHttpMessageHandler constructor Or use a '*' for any request uri. Search-Key: '"

  /** The text of the exception thrown when no option survives the filters. */
  function NoMatchMessage(opts: seq<Options>, request: Request): string {
    MessageStart + request.uri.text + MessageAdvice + request.uri.absoluteUri
    + ". Setup: " + SetupCount(opts) + " responses: " + Text.Join(";", Signatures(opts))
  }

  /** `IncrementCalls` on the option at position `i`: its counter alone goes up by one. */
  function IncrementCalls(opts: seq<Options>, i: nat): (r: seq<Options>)
    requires i < |opts|
    ensures |r| == |opts|
    ensures r[i] == opts[i].(numberOfTimesCalled := Increment(opts[i].numberOfTimesCalled))
    ensures forall j :: 0 <= j < |opts| && j != i ==> r[j] == opts[j]
  {
    opts[i := opts[i].(numberOfTimesCalled := Increment(opts[i].numberOfTimesCalled))]
  }

  /**
   * `SendAsync`. In exception mode the stored exception is thrown before
   * anything else. Otherwise the request's `AbsoluteUri` goes through the
   * `RequestUri` setter (which refuses a blank value), the filters pick an
   * option, and the picked option's counter is incremented.
   */
  function Send(h: Handler, request: Request): (r: Sent)
    ensures h.Throwing? ==> r == Sent(Failed(Preconfigured(h.exception)), h)
    ensures r.handler.Serving? <==> h.Serving?
    ensures h.Serving? ==> |r.handler.options| == |h.options|
  {
    match h
    case Throwing(e) => Sent(Failed(Preconfigured(e)), h)
    case Serving(opts) =>
      if Text.IsNullOrWhiteSpace(Some(request.uri.absoluteUri)) then Sent(Failed(ArgumentNull("value")), h)
      else
        match ExpectedOption(opts, request)
        case NoneFound => Sent(Failed(NoMatch(NoMatchMessage(opts, request))), h)
        case Several => Sent(Failed(MoreThanOneMatch), h)
        case One(i) => Sent(Responded(opts[i].response), Serving(IncrementCalls(opts, i)))
  }

  /** The request URI can be given to the options' `RequestUri` setter. */
  predicate Addressable(request: Request) {
    !Text.IsNullOrWhiteSpace(Some(request.uri.absoluteUri))
  }

  /**
   * Exactly one matching option: its response is returned, its counter goes
   * up by one, and nothing else in the handler changes.
   */
  lemma SendWithOneMatch(opts: seq<Options>, request: Request, i: nat)
    requires Addressable(request)
    requires i < |opts| && Matches(opts[i], request)
    requires forall j :: 0 <= j < |opts| && j != i ==> !Matches(opts[j], request)
    ensures Send(Serving(opts), request) == Sent(Responded(opts[i].response), Serving(IncrementCalls(opts, i)))
  {
    ExpectedOptionIsSingleMatch(opts, request);
    var p := SingleMatch(0, |opts|, MatchAt(opts, request));
    assert MatchAt(opts, request)(i);
  }

  /** Two matching options: `SingleOrDefault` throws and no counter changes. */
  lemma SendWithSeveralMatches(opts: seq<Options>, request: Request, i: nat, j: nat)
    requires Addressable(request)
    requires i < j < |opts| && Matches(opts[i], request) && Matches(opts[j], request)
    ensures Send(Serving(opts), request) == Sent(Failed(MoreThanOneMatch), Serving(opts))
  {
    ExpectedOptionIsSingleMatch(opts, request);
    assert MatchAt(opts, request)(i) && MatchAt(opts, request)(j);
  }

  /** No matching option: the no-match exception, and no counter changes. */
  lemma SendWithNoMatch(opts: seq<Options>, request: Request)
    requires Addressable(request)
    requires forall j :: 0 <= j < |opts| ==> !Matches(opts[j], request)
    ensures Send(Serving(opts), request) == Sent(Failed(NoMatch(NoMatchMessage(opts, request))), Serving(opts))
  {
    ExpectedOptionIsSingleMatch(opts, request);
    var p := SingleMatch(0, |opts|, MatchAt(opts, request));
    assert p.NoneFound? by {
      forall k | 0 <= k < |opts| ensures !MatchAt(opts, request)(k) {
        assert !Matches(opts[k], request);
      }
    }
  }

  /** Option `i` matches and no other one does. */
  predicate OnlyMatch(opts: seq<Options>, request: Request, i: nat) {
    i < |opts| && Matches(opts[i], request)
    && forall j :: 0 <= j < |opts| && j != i ==> !Matches(opts[j], request)
  }

  /** So a send answers exactly when one option matches. */
  lemma RespondsIffExactlyOneMatch(opts: seq<Options>, request: Request)
    requires Addressable(request)
    ensures Send(Serving(opts), request).outcome.Responded? <==> exists i :: OnlyMatch(opts, request, i)
  {
    if i :| OnlyMatch(opts, request, i) {
      SendWithOneMatch(opts, request, i);
    } else if i :| 0 <= i < |opts| && Matches(opts[i], request) {
      assert !OnlyMatch(opts, request, i);
      var j :| 0 <= j < |opts| && j != i && Matches(opts[j], request);
      if i < j {
        SendWithSeveralMatches(opts, request, i, j);
      } else {
        SendWithSeveralMatches(opts, request, j, i);
      }
    } else {
      SendWithNoMatch(opts, request);
    }
  }

  /** A send never changes a signature, so the store keeps its keys. */
  lemma SendKeepsSignatures(h: Handler, request: Request)
    requires h.Serving?
    ensures Signatures(Send(h, request).handler.options) == Signatures(h.options)
  {
  }

  /** The no-match message lists the signature of every registered option. */
  lemma NoMatchMessageListsEveryOption(opts: seq<Options>, request: Request, i: nat)
    requires i < |opts|
    ensures Text.Contains(NoMatchMessage(opts, request), StringUriOptions.Signature(opts[i]))
  {
    var joined := Text.Join(";", Signatures(opts));
    Text.JoinContainsEveryPart(";", Signatures(opts), i);
    var front := MessageStart + request.uri.text + MessageAdvice + request.uri.absoluteUri
                 + ". Setup: " + SetupCount(opts) + " responses: ";
    Text.ContainsInMiddle(front, joined, "", StringUriOptions.Signature(opts[i]));
    assert front + joined + "" == NoMatchMessage(opts, request);
  }

  /** The all-default option matches a request to any URI with any method exactly when it has no body. */
  lemma DefaultOptionMatchesBodilessRequests(request: Request)
    ensures Matches(StringUriOptions.Default, request) <==> request.content.None?
  {
  }

  /** A GET-only option matches every body-less GET, whatever its URI and headers. */
  lemma GetOnlyOptionMatchesEveryGet(uri: Uri, headers: HeaderMap)
    ensures Matches(StringUriOptions.Default.(httpMethod := Some(Get)), Request(Get, uri, None, headers))
  {
  }

  /**
   * A `"*"` option and an option for the request's own URI both match, so the
   * send fails rather than preferring the specific one.
   */
  lemma WildcardAndSpecificAreAmbiguous(uri: Uri, a: ResponseId, b: ResponseId)
    requires Addressable(Request(Get, uri, None, []))
    ensures
      var opts := [StringUriOptions.Default.(response := Some(a)),
                   StringUriOptions.Default.(requestUri := uri.absoluteUri, response := Some(b))];
      Send(Serving(opts), Request(Get, uri, None, [])) == Sent(Failed(MoreThanOneMatch), Serving(opts))
  {
    var opts := [StringUriOptions.Default.(response := Some(a)),
                 StringUriOptions.Default.(requestUri := uri.absoluteUri, response := Some(b))];
    SendWithSeveralMatches(opts, Request(Get, uri, None, []), 0, 1);
  }

  const DeleteMethod: Method := "DELETE"
  const SomeWebsite: string := "http://www.something.com/some/website"

  /** The registered DELETE-only option for `SomeWebsite`. */
  function DeleteOnly(response: ResponseId): Options {
    StringUriOptions.Default.(requestUri := SomeWebsite, httpMethod := Some(DeleteMethod), response := Some(response))
  }

  /** The message names the one registered signature, `"DELETE {url}"`. */
  lemma DeleteOnlyMessage(response: ResponseId, request: Request)
    requires request.uri == Uri(SomeWebsite, SomeWebsite)
    ensures NoMatchMessage([DeleteOnly(response)], request)
      == MessageStart + SomeWebsite + MessageAdvice + SomeWebsite + ". Setup: 1 responses: DELETE " + SomeWebsite
  {
    var opts := [DeleteOnly(response)];
    assert StringUriOptions.Signature(opts[0]) == "DELETE " + SomeWebsite;
    assert Signatures(opts) == ["DELETE " + SomeWebsite];
    assert SetupCount(opts) == "1";
  }

  /** A GET against a DELETE-only option finds nothing. */
  lemma GetAgainstDeleteOption(response: ResponseId)
    ensures Send(Serving([DeleteOnly(response)]), Request(Get, Uri(SomeWebsite, SomeWebsite), None, [])).outcome
      == Failed(NoMatch(MessageStart + SomeWebsite + MessageAdvice + SomeWebsite
                        + ". Setup: 1 responses: DELETE " + SomeWebsite))
  {
    var request := Request(Get, Uri(SomeWebsite, SomeWebsite), None, []);
    assert !SameMethod(DeleteMethod, Get) by {
      assert Text.Fold(DeleteMethod)[0] == 'D' && Text.Fold(Get)[0] == 'G';
    }
    assert SomeWebsite[0] == 'h';
    SendWithNoMatch([DeleteOnly(response)], request);
    DeleteOnlyMessage(response, request);
  }
}

=== FILE: string_uri_options.dfy ===
/** `HttpMessageOptions` with a string request URI (src/WorldDomination.HttpClient.Helpers). */
module StringUriOptions {
  import opened Wrappers
  import opened Http
  import Text
  import opened SignatureParts

  /**
   * The option's fields. `contentSerialized` is the private string cached
   * when `HttpContent` is assigned; `numberOfTimesCalled` has a private setter.
   */
  datatype Options = Options(
    requestUri: string,
    httpMethod: Option<Method>,
    response: Option<ResponseId>,
    content: Option<Content>,
    contentSerialized: Option<string>,
    headers: Option<HeaderMap>,
    numberOfTimesCalled: Int32)

  /** `HttpMessageOptions.NoValue`. */
  const NoValue: string := "*"

  /** `new HttpMessageOptions()`: any URI, any method, no content, no headers, not called. */
  const Default: Options := Options(NoValue, None, None, None, None, None, 0)

  /** The setter's guard: a request URI is never null, empty or white space. */
  predicate Valid(o: Options) {
    !Text.IsNullOrWhiteSpace(Some(o.requestUri))
  }

  /** The cache holds the serialisation of the content currently assigned. */
  predicate CacheFresh(o: Options) {
    o.content.Some? ==> o.contentSerialized == Some(o.content.value.text)
  }

  /** The `RequestUri` setter: blank values throw and the option keeps its old value. */
  function SetRequestUri(o: Options, value: Option<string>): (r: Result<Options, Failure>)
    ensures r.Failure? <==> Text.IsNullOrWhiteSpace(value)
    ensures r.Failure? ==> r.error == ArgumentNull("value")
    ensures r.Success? ==> r.value.requestUri == value.value && Valid(r.value)
    ensures r.Success? ==> r.value == o.(requestUri := value.value)
  {
    if Text.IsNullOrWhiteSpace(value) then Failure(ArgumentNull("value"))
    else Success(o.(requestUri := value.value))
  }

  /** The `HttpContent` setter: the content's string is read once and cached, `"*"` for null. */
  function SetContent(o: Options, value: Option<Content>): (r: Options)
    ensures r.content == value && CacheFresh(r)
    ensures value.None? ==> r.contentSerialized == Some(NoValue)
    ensures r.requestUri == o.requestUri && r.httpMethod == o.httpMethod && r.headers == o.headers
    ensures r.response == o.response && r.numberOfTimesCalled == o.numberOfTimesCalled
  {
    o.(content := value, contentSerialized := Some(if value.Some? then value.value.text else NoValue))
  }

  /** `ToString()`: method or `*`, a space, then the rest. */
  function Signature(o: Options): string {
    MethodText(o.httpMethod) + " " + Described(o)
  }

  /** What follows the method in a signature: the URI, then the body and header segments. */
  function Described(o: Options): string {
    o.requestUri + BodySegment(o.content, o.contentSerialized) + HeaderSegment(o.headers)
  }

  /** The defaults and the setters keep the request URI non-blank. */
  lemma RequestUriNeverBlank(o: Options, uri: Option<string>, c: Option<Content>)
    requires Valid(o)
    ensures Valid(Default)
    ensures SetRequestUri(o, uri).Success? ==> Valid(SetRequestUri(o, uri).value)
    ensures Valid(SetContent(o, c))
  {
    assert Default.requestUri[0] == '*';
  }

  /** Options with different method texts never share a signature. */
  lemma DifferentMethodsDifferentSignatures(a: Options, b: Options)
    requires MethodText(a.httpMethod) != MethodText(b.httpMethod)
    ensures Signature(a) != Signature(b)
  {
    if Signature(a) == Signature(b) {
      Text.LeadingWordIsDetermined(MethodText(a.httpMethod), MethodText(b.httpMethod), Described(a), Described(b));
    }
  }

  /**
   * With a fresh cache the signature depends only on method, URI, content
   * string and headers: options that differ in response or call count collide.
   */
  lemma SignatureIgnoresResponseAndCount(a: Options, b: Options)
    requires CacheFresh(a) && CacheFresh(b)
    requires a.httpMethod == b.httpMethod && a.requestUri == b.requestUri && a.headers == b.headers
    requires a.content.Some? == b.content.Some?
    requires a.content.Some? ==> a.content.value.text == b.content.value.text
    ensures Signature(a) == Signature(b)
  {
  }

  /** The all-default option renders as `"* *"`, a GET-only one as `"GET *"`. */
  lemma DefaultSignatures()
    ensures Signature(Default) == "* *"
    ensures Signature(Default.(httpMethod := Some(Get))) == "GET *"
  {
  }
}

=== FILE: text.dfy ===
/** The string primitives of the .NET base library that the handlers use. */
module Text {
  import opened Wrappers

  /** `char.IsWhiteSpace`: the Unicode White_Space characters. */
  predicate IsWhiteSpace(c: char) {
    c == ' ' || '\t' <= c <= '\r' || c == '\U{0085}' || c == '\U{00A0}' || c == '\U{1680}'
    || '\U{2000}' <= c <= '\U{200A}' || c == '\U{2028}' || c == '\U{2029}'
    || c == '\U{202F}' || c == '\U{205F}' || c == '\U{3000}'
  }

  /** `string.IsNullOrWhiteSpace`: null, empty, or white space only. */
  predicate IsNullOrWhiteSpace(s: Option<string>) {
    s.None? || forall i :: 0 <= i < |s.value| ==> IsWhiteSpace(s.value[i])
  }

  /** Upper-case folding of one character (ASCII letters only). */
  function UpperAscii(c: char): char {
    if 'a' <= c <= 'z' then (c as int - 32) as char else c
  }

  function Fold(s: string): (r: string)
    ensures |r| == |s|
  {
    seq(|s|, i requires 0 <= i < |s| => UpperAscii(s[i]))
  }

  /** `string.Equals(a, b, StringComparison.OrdinalIgnoreCase)`. */
  predicate EqualsIgnoreCase(a: string, b: string) {
    Fold(a) == Fold(b)
  }

  /** `string.StartsWith` on a sequence of characters. */
  predicate StartsWith(s: string, prefix: string) {
    |prefix| <= |s| && s[..|prefix|] == prefix
  }

  /** `sub` occurs in `s` starting at position `k`. */
  predicate OccursAt(s: string, sub: string, k: int) {
    0 <= k <= |s| - |sub| && s[k..k + |sub|] == sub
  }

  /** `sub` occurs somewhere inside `s`. */
  ghost predicate Contains(s: string, sub: string) {
    exists k :: OccursAt(s, sub, k)
  }

  /** `string.Join(separator, parts)`. */
  function Join(separator: string, parts: seq<string>): string
    decreases |parts|
  {
    if |parts| == 0 then ""
    else if |parts| == 1 then parts[0]
    else parts[0] + separator + Join(separator, parts[1..])
  }

  predicate IsDigit(c: char) {
    '0' <= c <= '9'
  }

  /** `int.ToString()` for a non-negative value: its decimal digits. */
  function NatToString(n: nat): (r: string)
    ensures |r| > 0
    ensures forall i :: 0 <= i < |r| ==> IsDigit(r[i])
    decreases n
  {
    var d := ['0' + (n % 10) as char];
    if n < 10 then d else NatToString(n / 10) + d
  }

  /** Reads a decimal numeral back; the inverse of `NatToString`. */
  function ParseDigits(s: string): nat
    requires forall i :: 0 <= i < |s| ==> IsDigit(s[i])
    decreases |s|
  {
    if |s| == 0 then 0
    else
      assert IsDigit(s[|s| - 1]);
      10 * ParseDigits(s[..|s| - 1]) + (s[|s| - 1] as int - '0' as int)
  }

  lemma {:induction false} NatToStringRoundTrip(n: nat)
    ensures ParseDigits(NatToString(n)) == n
    decreases n
  {
    var r := NatToString(n);
    var d := ['0' + (n % 10) as char];
    if n >= 10 {
      NatToStringRoundTrip(n / 10);
      assert r == NatToString(n / 10) + d;
      assert r[..|r| - 1] == NatToString(n / 10);
    }
  }

  lemma ContainsItself(s: string)
    ensures Contains(s, s)
  {
    assert OccursAt(s, s, 0);
  }

  /** A substring of the middle part is a substring of the whole. */
  lemma ContainsInMiddle(a: string, b: string, c: string, sub: string)
    requires Contains(b, sub)
    ensures Contains(a + b + c, sub)
  {
    var k :| OccursAt(b, sub, k);
    var s := a + b + c;
    assert s[|a| + k..|a| + k + |sub|] == b[k..k + |sub|];
    assert OccursAt(s, sub, |a| + k);
  }

  /** Every part of a join appears in the joined string. */
  lemma {:induction false} JoinContainsEveryPart(separator: string, parts: seq<string>, i: nat)
    requires i < |parts|
    ensures Contains(Join(separator, parts), parts[i])
    decreases |parts|
  {
    if |parts| == 1 {
      ContainsItself(parts[0]);
    } else if i == 0 {
      ContainsItself(parts[0]);
      ContainsInMiddle("", parts[0], separator + Join(separator, parts[1..]), parts[0]);
      assert "" + parts[0] + (separator + Join(separator, parts[1..])) == Join(separator, parts);
    } else {
      JoinContainsEveryPart(separator, parts[1..], i - 1);
      ContainsInMiddle(parts[0] + separator, Join(separator, parts[1..]), "", parts[i]);
      assert parts[0] + separator + Join(separator, parts[1..]) + "" == Join(separator, parts);
    }
  }

  /** Appending one more part to a non-empty join adds the separator and the part. */
  lemma {:induction false} JoinAppend(separator: string, parts: seq<string>, x: string)
    requires |parts| > 0
    ensures Join(separator, parts + [x]) == Join(separator, parts) + separator + x
    decreases |parts|
  {
    if |parts| > 1 {
      JoinAppend(separator, parts[1..], x);
      assert (parts + [x])[1..] == parts[1..] + [x];
    } else {
      assert (parts + [x])[1..] == [x];
    }
  }

  /**
   * Appending the parts to a builder, the separator before every part but the
   * first, builds their join.
   */
  method BuildJoined(separator: string, parts: seq<string>) returns (text: string)
    ensures text == Join(separator, parts)
  {
    text := "";
    for i := 0 to |parts|
      invariant text == Join(separator, parts[..i])
    {
      if i > 0 {
        text := text + separator;
        JoinAppend(separator, parts[..i], parts[i]);
      }
      text := text + parts[i];
      assert parts[..i + 1] == parts[..i] + [parts[i]];
    }
    assert parts[..|parts|] == parts;
  }

  /** Two strings that each start with a space-free word and a space agree on that word. */
  lemma LeadingWordIsDetermined(a: string, b: string, x: string, y: string)
    requires forall i :: 0 <= i < |a| ==> a[i] != ' '
    requires forall i :: 0 <= i < |b| ==> b[i] != ' '
    requires a + " " + x == b + " " + y
    ensures a == b
  {
    var s := a + " " + x;
    var t := b + " " + y;
    assert s[|a|] == ' ' && t[|b|] == ' ';
    assert forall i :: 0 <= i < |a| ==> s[i] == a[i];
    assert forall i :: 0 <= i < |b| ==> t[i] == b[i];
    assert |a| == |b|;
    assert a == s[..|a|] == t[..|b|] == b;
  }
}

=== FILE: uri_handler.dfy ===
/**
 * `FakeHttpMessageHandler` of the `Uri` revision (src/HttpClient.Helpers):
 * one conjunctive predicate, in which every unset field of an option is a
 * wildcard, is handed to `SingleOrDefault`.
 */
module UriHandler {
  import opened Wrappers
  import opened Http
  import Text
  import Headers
  import opened Selection
  import UriOptions
  import OptionStore

  type Options = UriOptions.Options

  /** Either the exception mode or the registered options, in registration order. */
  datatype Handler = Throwing(exception: ExceptionId) | Serving(options: seq<Options>)

  /** What a send ends with, and the handler afterwards (only call counters can change). */
  datatype Sent = Sent(outcome: SendOutcome, handler: Handler)

  /** The constructor taking a list of options, then `Initialize`. */
  method FromOptionsList(lotsOfOptions: Option<seq<Option<Options>>>) returns (r: Result<Handler, Failure>)
    ensures lotsOfOptions.None? ==> r == Failure(ArgumentNull("source"))
    ensures lotsOfOptions.Some? && |lotsOfOptions.value| == 0 ==> r == Failure(ArgumentOutOfRange("lotsOfOptions"))
    ensures r.Success? <==>
      lotsOfOptions.Some? && |lotsOfOptions.value| > 0
      && OptionStore.Accepted(lotsOfOptions.value, UriOptions.Signature)
    ensures r.Success? ==> r.value.Serving? && |r.value.options| == |lotsOfOptions.value|
    ensures r.Success? ==> forall i :: 0 <= i < |r.value.options| ==> lotsOfOptions.value[i] == Some(r.value.options[i])
    ensures r.Success? ==> OptionStore.DistinctSignatures(r.value.options, UriOptions.Signature)
    ensures r.Failure? && r.error.DuplicateOption? ==>
      exists i, j :: 0 <= i < j < |lotsOfOptions.value|
        && lotsOfOptions.value[i].Some? && lotsOfOptions.value[j].Some?
        && UriOptions.Signature(lotsOfOptions.value[i].value) == UriOptions.Signature(lotsOfOptions.value[j].value)
    ensures r.Failure? && r.error.NullReference? ==>
      exists i :: 0 <= i < |lotsOfOptions.value| && lotsOfOptions.value[i].None?
    ensures r.Failure? && r.error.ArgumentNull? ==> lotsOfOptions.None?
    ensures r.Failure? && r.error.ArgumentOutOfRange? ==> lotsOfOptions.Some? && |lotsOfOptions.value| == 0
    ensures r.Failure? && (r.error.NullReference? || r.error.DuplicateOption?) ==>
      exists n: nat :: OptionStore.FirstRefusedAt(lotsOfOptions.value, UriOptions.Signature, n)
        && (r.error.NullReference? <==> lotsOfOptions.value[n].None?)
    ensures r.Failure? ==> r.error.ArgumentNull? || r.error.ArgumentOutOfRange? || r.error.DuplicateOption? || r.error.NullReference?
  {
    var store := OptionStore.Initialize(lotsOfOptions, UriOptions.Signature);
    if store.Failure? {
      return Failure(store.error);
    }
    return Success(Serving(store.value));
  }

  /** The single-option constructor: a one-element list; a null option fails on its `ToString()`. */
  method FromOptions(options: Option<Options>) returns (r: Result<Handler, Failure>)
    ensures options.None? ==> r == Failure(NullReference)
    ensures options.Some? ==> r == Success(Serving([options.value]))
  {
    r := FromOptionsList(Some([options]));
    if options.Some? {
      assert r.Success? by {
        assert OptionStore.Accepted([options], UriOptions.Signature);
      }
      assert r.value.options[0] == options.value;
      assert r.value.options == [options.value];
    } else {
      assert [options][0].None?;
      assert r.Failure?;
      assert !r.error.DuplicateOption?;
    }
  }

  /** The exception constructor: `exception ?? throw new ArgumentNullException(...)`. */
  function FromException(exception: Option<ExceptionId>): (r: Result<Handler, Failure>)
    ensures exception.None? <==> r.Failure?
    ensures r.Failure? ==> r.error == ArgumentNull("exception")
    ensures r.Success? ==> r.value == Throwing(exception.value)
  {
    if exception.None? then Failure(ArgumentNull("exception")) else Success(Throwing(exception.value))
  }

  /**
   * `ContentAreEqual`: two nulls are equal, one null is not, otherwise the
   * two strings read from the contents are compared case-sensitively.
   */
  function ContentAreEqual(source: Option<Content>, destination: Option<Content>): (r: bool)
    ensures source.None? && destination.None? ==> r
    ensures source.None? != destination.None? ==> !r
    ensures source.Some? && destination.Some? ==> (r <==> source.value.text == destination.value.text)
  {
    if source.None? && destination.None? then true
    else if source.None? || destination.None? then false
    else source.value.text == destination.value.text
  }

  /** Only the strings matter: bytes and headers of the contents are never compared. */
  lemma ContentAreEqualReadsOnlyText(a: Content, b: Content)
    ensures ContentAreEqual(Some(a), Some(b)) <==> a.text == b.text
    ensures ContentAreEqual(Some(a), Some(b)) == ContentAreEqual(Some(b), Some(a))
  {
  }

  /** The comparison is case-sensitive. */
  lemma ContentComparisonIsCaseSensitive(h: ContentHeaders, bytes: seq<byte>)
    ensures !ContentAreEqual(Some(Content(h, bytes, "hi")), Some(Content(h, bytes, "HI")))
  {
    assert "hi"[0] != "HI"[0];
  }

  /**
   * The option the handler builds from the request: a new `Uri` from the
   * request's `AbsoluteUri`, the request's method, content and headers.
   */
  function RequestOption(request: Request): (r: Options)
    ensures r.requestUri == Some(request.uri) && r.httpMethod == Some(request.httpMethod)
    ensures r.content == request.content && r.headers == Some(request.headers)
    ensures UriOptions.CacheFresh(r) && r.response.None? && r.numberOfTimesCalled == 0
  {
    UriOptions.SetContent(UriOptions.Default.(requestUri := Some(request.uri), httpMethod := Some(request.httpMethod),
                                              headers := Some(request.headers)),
                          request.content)
  }

  /** URI: unset, or the same `AbsoluteUri` compared ordinally ignoring case. */
  predicate UriAgrees(x: Options, request: Request) {
    x.requestUri.None? || Text.EqualsIgnoreCase(x.requestUri.value.absoluteUri, request.uri.absoluteUri)
  }

  /** Method: unset, or the same method. */
  predicate MethodAgrees(x: Options, request: Request) {
    x.httpMethod.None? || SameMethod(x.httpMethod.value, request.httpMethod)
  }

  /** Content: unset, or `ContentAreEqual` with the request's content. */
  predicate ContentAgrees(x: Options, request: Request) {
    x.content.None? || ContentAreEqual(x.content, request.content)
  }

  /** Headers: unset, empty, or `HeadersAreEqual` with the request's headers. */
  predicate HeadersAgree(x: Options, request: Request) {
    x.headers.None? || |x.headers.value| == 0 || Headers.HeadersMatch(x.headers.value, request.headers)
  }

  /** The predicate handed to `SingleOrDefault`. */
  predicate Matches(x: Options, request: Request) {
    UriAgrees(x, request) && MethodAgrees(x, request) && ContentAgrees(x, request) && HeadersAgree(x, request)
  }

  /** The position of a matching option. */
  function MatchAt(opts: seq<Options>, request: Request): nat -> bool {
    (i: nat) => i < |opts| && Matches(opts[i], request)
  }

  /** `GetExpectedOption`. */
  function ExpectedOption(opts: seq<Options>, request: Request): Pick {
    SingleMatch(0, |opts|, MatchAt(opts, request))
  }

  /** `"{i + 1}) {option}."` for each registered option. */
  function Numbered(opts: seq<Options>): (r: seq<string>)
    ensures |r| == |opts|
    ensures forall i :: 0 <= i < |opts| ==> r[i] == Text.NatToString(i + 1) + ") " + UriOptions.Signature(opts[i]) + "."
  {
    seq(|opts|, i requires 0 <= i < |opts| => Text.NatToString(i + 1) + ") " + UriOptions.Signature(opts[i]) + ".")
  }

  /**
   * The `StringBuilder` loop that lists the options: a space before every
   * entry but the first. It builds the numbered entries joined by spaces.
   */
  method SetupOptionsText(opts: seq<Options>) returns (text: string)
    ensures text == Text.Join(" ", Numbered(opts))
  {
    text := Text.BuildJoined(" ", Numbered(opts));
  }

  const MessageStart: string := "No HttpResponseMessage found for the Request => What was called: ["
  const MessageMiddle: string := "]. At least one of these option(s) should have been matched: ["

  /** The text of the exception thrown when no option matches. */
  function NoMatchMessage(opts: seq<Options>, request: Request): string {
    MessageStart + UriOptions.Signature(RequestOption(request)) + MessageMiddle
    + Text.Join(" ", Numbered(opts)) + "]"
  }

  /** `IncrementCalls` on the option at position `i`: its counter alone goes up by one. */
  function IncrementCalls(opts: seq<Options>, i: nat): (r: seq<Options>)
    requires i < |opts|
    ensures |r| == |opts|
    ensures r[i] == opts[i].(numberOfTimesCalled := Increment(opts[i].numberOfTimesCalled))
    ensures forall j :: 0 <= j < |opts| && j != i ==> r[j] == opts[j]
  {
    opts[i := opts[i].(numberOfTimesCalled := Increment(opts[i].numberOfTimesCalled))]
  }

  /**
   * `SendAsync`. In exception mode the stored exception is thrown before any
   * matching. A picked option is counted first; assigning the request to a
   * null response then throws, with the counter already raised.
   */
  function Send(h: Handler, request: Request): (r: Sent)
    ensures h.Throwing? ==> r == Sent(Failed(Preconfigured(h.exception)), h)
    ensures r.handler.Serving? <==> h.Serving?
    ensures h.Serving? ==> |r.handler.options| == |h.options|
  {
    match h
    case Throwing(e) => Sent(Failed(Preconfigured(e)), h)
    case Serving(opts) =>
      match ExpectedOption(opts, request)
      case NoneFound => Sent(Failed(NoMatch(NoMatchMessage(opts, request))), h)
      case Several => Sent(Failed(MoreThanOneMatch), h)
      case One(i) =>
        var counted := IncrementCalls(opts, i);
        if opts[i].response.None? then Sent(Failed(NullReference), Serving(counted))
        else Sent(Responded(opts[i].response), Serving(counted))
  }

  /** Option `i` matches and no other one does. */
  predicate OnlyMatch(opts: seq<Options>, request: Request, i: nat) {
    i < |opts| && Matches(opts[i], request)
    && forall j :: 0 <= j < |opts| && j != i ==> !Matches(opts[j], request)
  }

  /**
   * Exactly one matching option: its counter goes up by one and nothing else
   * changes; its response is returned, or a null one throws.
   */
  lemma SendWithOneMatch(opts: seq<Options>, request: Request, i: nat)
    requires OnlyMatch(opts, request, i)
    ensures Send(Serving(opts), request).handler == Serving(IncrementCalls(opts, i))
    ensures Send(Serving(opts), request).outcome ==
      if opts[i].response.Some? then Responded(opts[i].response) else Failed(NullReference)
  {
    assert MatchAt(opts, request)(i);
  }

  /** Two matching options: `SingleOrDefault` throws and no counter changes. */
  lemma SendWithSeveralMatches(opts: seq<Options>, request: Request, i: nat, j: nat)
    requires i < j < |opts| && Matches(opts[i], request) && Matches(opts[j], request)
    ensures Send(Serving(opts), request) == Sent(Failed(MoreThanOneMatch), Serving(opts))
  {
    assert MatchAt(opts, request)(i) && MatchAt(opts, request)(j);
  }

  /** No matching option: the no-match exception, and no counter changes. */
  lemma SendWithNoMatch(opts: seq<Options>, request: Request)
    requires forall j :: 0 <= j < |opts| ==> !Matches(opts[j], request)
    ensures Send(Serving(opts), request) == Sent(Failed(NoMatch(NoMatchMessage(opts, request))), Serving(opts))
  {
    var p := ExpectedOption(opts, request);
    assert p.NoneFound? by {
      forall k | 0 <= k < |opts| ensures !MatchAt(opts, request)(k) {
        assert !Matches(opts[k], request);
      }
    }
  }

  /** So a send picks an option exactly when one option matches. */
  lemma PicksIffExactlyOneMatch(opts: seq<Options>, request: Request)
    ensures Send(Serving(opts), request).handler != Serving(opts) ==> exists i: nat :: OnlyMatch(opts, request, i)
    ensures Send(Serving(opts), request).outcome.Responded? <==>
      exists i: nat :: OnlyMatch(opts, request, i) && opts[i].response.Some?
  {
    if i :| OnlyMatch(opts, request, i) {
      SendWithOneMatch(opts, request, i);
    } else if i :| 0 <= i < |opts| && Matches(opts[i], request) {
      assert !OnlyMatch(opts, request, i);
      var j :| 0 <= j < |opts| && j != i && Matches(opts[j], request);
      if i < j {
        SendWithSeveralMatches(opts, request, i, j);
      } else {
        SendWithSeveralMatches(opts, request, j, i);
      }
    } else {
      SendWithNoMatch(opts, request);
    }
  }

  /** An option without a URI matches every URI; one with a URI ignores its letter case. */
  lemma UriWildcardAndCase(x: Options, request: Request, other: Uri)
    requires Text.Fold(other.absoluteUri) == Text.Fold(request.uri.absoluteUri)
    ensures UriAgrees(x.(requestUri := None), request)
    ensures UriAgrees(x.(requestUri := Some(other)), request)
  {
  }

  /** The all-default option matches every request. */
  lemma DefaultOptionMatchesEverything(request: Request)
    ensures Matches(UriOptions.Default, request)
  {
  }

  /** A `"*"`-like option (no URI) and an option for the request's own URI are ambiguous. */
  lemma NoUriAndSpecificAreAmbiguous(request: Request, a: ResponseId, b: ResponseId)
    ensures
      var opts := [UriOptions.Default.(response := Some(a)),
                   UriOptions.Default.(requestUri := Some(request.uri), response := Some(b))];
      Send(Serving(opts), request) == Sent(Failed(MoreThanOneMatch), Serving(opts))
  {
    var opts := [UriOptions.Default.(response := Some(a)),
                 UriOptions.Default.(requestUri := Some(request.uri), response := Some(b))];
    SendWithSeveralMatches(opts, request, 0, 1);
  }

  /** The no-match message lists every option with its number, starting from 1. */
  lemma NoMatchMessageListsEveryOption(opts: seq<Options>, request: Request, i: nat)
    requires i < |opts|
    ensures Text.Contains(NoMatchMessage(opts, request),
                          Text.NatToString(i + 1) + ") " + UriOptions.Signature(opts[i]) + ".")
  {
    Text.JoinContainsEveryPart(" ", Numbered(opts), i);
    var front := MessageStart + UriOptions.Signature(RequestOption(request)) + MessageMiddle;
    Text.ContainsInMiddle(front, Text.Join(" ", Numbered(opts)), "]", Numbered(opts)[i]);
  }

  /** Everything of an option but its call counter. */
  function Setup(o: Options): Options {
    o.(numberOfTimesCalled := 0)
  }

  /** Matching never reads the call counter. */
  lemma MatchingIgnoresCounters(opts: seq<Options>, others: seq<Options>, request: Request)
    requires |opts| == |others|
    requires forall i :: 0 <= i < |opts| ==> Setup(opts[i]) == Setup(others[i])
    ensures ExpectedOption(opts, request) == ExpectedOption(others, request)
  {
    forall i | 0 <= i < |opts|
      ensures MatchAt(opts, request)(i) == MatchAt(others, request)(i)
    {
      assert opts[i].requestUri == Setup(opts[i]).requestUri == others[i].requestUri;
      assert opts[i].httpMethod == Setup(opts[i]).httpMethod == others[i].httpMethod;
      assert opts[i].content == Setup(opts[i]).content == others[i].content;
      assert opts[i].headers == Setup(opts[i]).headers == others[i].headers;
    }
    SingleMatchSamePredicate(0, |opts|, MatchAt(opts, request), MatchAt(others, request));
  }

  /** Counters never show in what a send answers: the outcome depends on the options' setups alone. */
  lemma OutcomeIgnoresCounters(opts: seq<Options>, others: seq<Options>, request: Request)
    requires |opts| == |others|
    requires forall i :: 0 <= i < |opts| ==> Setup(opts[i]) == Setup(others[i])
    ensures Send(Serving(opts), request).outcome == Send(Serving(others), request).outcome
  {
    MatchingIgnoresCounters(opts, others, request);
    forall i | 0 <= i < |opts|
      ensures Numbered(opts)[i] == Numbered(others)[i] && opts[i].response == others[i].response
    {
      assert opts[i].requestUri == Setup(opts[i]).requestUri == others[i].requestUri;
      assert opts[i].httpMethod == Setup(opts[i]).httpMethod == others[i].httpMethod;
      assert opts[i].content == Setup(opts[i]).content == others[i].content;
      assert opts[i].contentSerialized == Setup(opts[i]).contentSerialized == others[i].contentSerialized;
      assert opts[i].headers == Setup(opts[i]).headers == others[i].headers;
      assert opts[i].response == Setup(opts[i]).response == others[i].response;
    }
    assert Numbered(opts) == Numbered(others);
  }

  /** What a handler with the options `opts` answers to each of `requests` sent alone, in order. */
  function Answers(opts: seq<Options>, requests: seq<Request>): (r: seq<SendOutcome>)
    ensures |r| == |requests|
    decreases |requests|
  {
    if |requests| == 0 then []
    else Answers(opts, requests[..|requests| - 1]) + [Send(Serving(opts), requests[|requests| - 1]).outcome]
  }

  /** Entry `k` of the answers is the outcome of sending request `k` to the starting options. */
  lemma {:induction false} AnswerIsSendAlone(opts: seq<Options>, requests: seq<Request>, k: nat)
    requires k < |requests|
    ensures Answers(opts, requests)[k] == Send(Serving(opts), requests[k]).outcome
    decreases |requests|
  {
    var front := requests[..|requests| - 1];
    if k < |requests| - 1 {
      AnswerIsSendAlone(opts, front, k);
      assert front[k] == requests[k];
    }
  }

  /** What `GetExpectedOption` gives for each of `requests`, in order. */
  function Picks(opts: seq<Options>, requests: seq<Request>): (r: seq<Pick>)
    ensures |r| == |requests|
    ensures forall j :: 0 <= j < |requests| ==> r[j] == ExpectedOption(opts, requests[j])
  {
    seq(|requests|, j requires 0 <= j < |requests| => ExpectedOption(opts, requests[j]))
  }

  /** How many of `picks` chose option `i`. */
  function Count(picks: seq<Pick>, i: nat): (r: nat)
    ensures r <= |picks|
    decreases |picks|
  {
    if |picks| == 0 then 0
    else Count(picks[..|picks| - 1], i) + (if picks[|picks| - 1] == One(i) then 1 else 0)
  }

  /** How many of `requests` pick option `i` of the registered setup. */
  function Hits(opts: seq<Options>, requests: seq<Request>, i: nat): nat {
    Count(Picks(opts, requests), i)
  }

  /** One more pick adds one to the count of the option it chose and none to the others. */
  lemma CountStep(picks: seq<Pick>, k: nat, i: nat)
    requires k < |picks|
    ensures Count(picks[..k + 1], i) == Count(picks[..k], i) + (if picks[k] == One(i) then 1 else 0)
  {
    assert picks[..k + 1][..k] == picks[..k];
  }

  /**
   * A send to options with the same setup as `opts` raises the counter of the
   * option `opts` would pick, by one modulo 2^32, and changes nothing else.
   */
  lemma SendRaisesPickedCounter(opts: seq<Options>, current: seq<Options>, request: Request)
    requires |current| == |opts|
    requires forall i :: 0 <= i < |opts| ==> Setup(current[i]) == Setup(opts[i])
    ensures var after := Send(Serving(current), request).handler.options;
      && |after| == |opts|
      && (forall i :: 0 <= i < |opts| ==> Setup(after[i]) == Setup(opts[i]))
      && forall i :: 0 <= i < |opts| ==>
           after[i].numberOfTimesCalled ==
           if ExpectedOption(opts, request) == One(i) then Increment(current[i].numberOfTimesCalled)
           else current[i].numberOfTimesCalled
  {
    MatchingIgnoresCounters(current, opts, request);
  }

  /** The counters after the first `k` picks: start value plus the picks of each option, modulo 2^32. */
  predicate CountedUpTo(opts: seq<Options>, picks: seq<Pick>, k: nat, current: seq<Options>)
    requires k <= |picks|
  {
    && |current| == |opts|
    && (forall i :: 0 <= i < |opts| ==> Setup(current[i]) == Setup(opts[i]))
    && forall i :: 0 <= i < |opts| ==>
         current[i].numberOfTimesCalled == Wrap(opts[i].numberOfTimesCalled + Count(picks[..k], i))
  }

  /** Before any request every counter holds its start value. */
  lemma CountedAtStart(opts: seq<Options>, picks: seq<Pick>)
    ensures CountedUpTo(opts, picks, 0, opts)
  {
    forall i | 0 <= i < |opts| ensures opts[i].numberOfTimesCalled == Wrap(opts[i].numberOfTimesCalled + 0) {
      assert (opts[i].numberOfTimesCalled - MinInt32) % 0x1_0000_0000 == opts[i].numberOfTimesCalled - MinInt32;
    }
  }

  /** Raising the counter of the option pick `k` chose keeps the count right for the first `k + 1` picks. */
  lemma CountedAfter(opts: seq<Options>, picks: seq<Pick>, k: nat, current: seq<Options>, after: seq<Options>)
    requires k < |picks| && CountedUpTo(opts, picks, k, current)
    requires |after| == |opts| && forall i :: 0 <= i < |opts| ==> Setup(after[i]) == Setup(opts[i])
    requires forall i :: 0 <= i < |opts| ==>
      after[i].numberOfTimesCalled ==
      if picks[k] == One(i) then Increment(current[i].numberOfTimesCalled) else current[i].numberOfTimesCalled
    ensures CountedUpTo(opts, picks, k + 1, after)
  {
    forall i | 0 <= i < |opts|
      ensures after[i].numberOfTimesCalled == Wrap(opts[i].numberOfTimesCalled + Count(picks[..k + 1], i))
    {
      CountStep(picks, k, i);
      WrapStep(opts[i].numberOfTimesCalled, Count(picks[..k], i), picks[k] == One(i),
               current[i].numberOfTimesCalled, after[i].numberOfTimesCalled);
    }
  }

  /** Sending request `k` keeps the count right for the first `k + 1` requests. */
  lemma CountedStep(opts: seq<Options>, requests: seq<Request>, k: nat, current: seq<Options>)
    requires k < |requests| && CountedUpTo(opts, Picks(opts, requests), k, current)
    ensures CountedUpTo(opts, Picks(opts, requests), k + 1, Send(Serving(current), requests[k]).handler.options)
  {
    var picks := Picks(opts, requests);
    SendRaisesPickedCounter(opts, current, requests[k]);
    assert picks[k] == ExpectedOption(opts, requests[k]);
    CountedAfter(opts, picks, k, current, Send(Serving(current), requests[k]).handler.options);
  }

  /** Once every request is counted, each counter is its start value plus the option's hits, wrapped. */
  lemma CountedAll(opts: seq<Options>, requests: seq<Request>, after: seq<Options>)
    requires CountedUpTo(opts, Picks(opts, requests), |requests|, after)
    ensures |after| == |opts|
    ensures forall i :: 0 <= i < |opts| ==> Setup(after[i]) == Setup(opts[i])
    ensures forall i :: 0 <= i < |opts| ==>
      after[i].numberOfTimesCalled == Wrap(opts[i].numberOfTimesCalled + Hits(opts, requests, i))
  {
    assert Picks(opts, requests)[..|requests|] == Picks(opts, requests);
  }

  /** While the counting invariant holds, request `k` is answered as the starting options answer it. */
  lemma AnsweredAsAlone(opts: seq<Options>, requests: seq<Request>, k: nat, current: seq<Options>)
    requires k < |requests| && CountedUpTo(opts, Picks(opts, requests), k, current)
    ensures Answers(opts, requests[..k]) + [Send(Serving(current), requests[k]).outcome] == Answers(opts, requests[..k + 1])
  {
    OutcomeIgnoresCounters(current, opts, requests[k]);
    assert requests[..k + 1][..k] == requests[..k];
  }

  /** Sends request `k`: the count stays right and its answer is the one the starting options give. */
  method SendNext(opts: seq<Options>, requests: seq<Request>, k: nat, current: seq<Options>, answered: seq<SendOutcome>)
    returns (outcomes: seq<SendOutcome>, after: seq<Options>)
    requires k < |requests| && CountedUpTo(opts, Picks(opts, requests), k, current)
    requires answered == Answers(opts, requests[..k])
    ensures CountedUpTo(opts, Picks(opts, requests), k + 1, after)
    ensures outcomes == Answers(opts, requests[..k + 1])
  {
    var sent := Send(Serving(current), requests[k]);
    CountedStep(opts, requests, k, current);
    AnsweredAsAlone(opts, requests, k, current);
    outcomes := answered + [sent.outcome];
    after := sent.handler.options;
  }

  /**
   * Sends `requests` one after another to a handler in option mode. Each
   * request is answered as the handler with the starting options would answer
   * it alone; every option keeps its setup, and its counter ends as its start
   * value plus the number of requests that picked it, modulo 2^32.
   */
  method SendAll(opts: seq<Options>, requests: seq<Request>) returns (outcomes: seq<SendOutcome>, after: seq<Options>)
    ensures |outcomes| == |requests| && |after| == |opts|
    ensures forall i :: 0 <= i < |opts| ==> Setup(after[i]) == Setup(opts[i])
    ensures forall i :: 0 <= i < |opts| ==>
      after[i].numberOfTimesCalled == Wrap(opts[i].numberOfTimesCalled + Hits(opts, requests, i))
    ensures outcomes == Answers(opts, requests)
  {
    outcomes := [];
    after := opts;
    CountedAtStart(opts, Picks(opts, requests));
    for k := 0 to |requests|
      invariant CountedUpTo(opts, Picks(opts, requests), k, after)
      invariant outcomes == Answers(opts, requests[..k])
    {
      outcomes, after := SendNext(opts, requests, k, after, outcomes);
    }
    CountedAll(opts, requests, after);
    assert requests[..|requests|] == requests;
  }
}

=== FILE: uri_options.dfy ===
/** `HttpMessageOptions` with a nullable `Uri` (src/HttpClient.Helpers). */
module UriOptions {
  import opened Wrappers
  import opened Http
  import Text
  import opened SignatureParts

  /**
   * The option's fields. Every field may be null; `contentSerialized` is the
   * private string cached when `HttpContent` is assigned.
   */
  datatype Options = Options(
    requestUri: Option<Uri>,
    httpMethod: Option<Method>,
    response: Option<ResponseId>,
    content: Option<Content>,
    contentSerialized: Option<string>,
    headers: Option<HeaderMap>,
    numberOfTimesCalled: Int32)

  /** `new HttpMessageOptions()`: every field null and the counter 0. */
  const Default: Options := Options(None, None, None, None, None, None, 0)

  /** The cache holds the serialisation of the content currently assigned, null for null. */
  predicate CacheFresh(o: Options) {
    o.contentSerialized == (if o.content.Some? then Some(o.content.value.text) else None)
  }

  /** The `HttpContent` setter: the content's string is read once and cached. */
  function SetContent(o: Options, value: Option<Content>): (r: Options)
    ensures r.content == value && CacheFresh(r)
    ensures r.requestUri == o.requestUri && r.httpMethod == o.httpMethod && r.headers == o.headers
    ensures r.response == o.response && r.numberOfTimesCalled == o.numberOfTimesCalled
  {
    o.(content := value, contentSerialized := if value.Some? then Some(value.value.text) else None)
  }

  /** `{RequestUri}` in an interpolated string: `Uri.ToString()`, or nothing for null. */
  function UriText(u: Option<Uri>): string {
    if u.Some? then u.value.text else ""
  }

  /** `ToString()`: method or `*`, a space, then the rest. */
  function Signature(o: Options): string {
    MethodText(o.httpMethod) + " " + Described(o)
  }

  /** What follows the method in a signature: the URI, then the body and header segments. */
  function Described(o: Options): string {
    UriText(o.requestUri) + BodySegment(o.content, o.contentSerialized) + HeaderSegment(o.headers)
  }

  /** Options with different method texts never share a signature. */
  lemma DifferentMethodsDifferentSignatures(a: Options, b: Options)
    requires MethodText(a.httpMethod) != MethodText(b.httpMethod)
    ensures Signature(a) != Signature(b)
  {
    if Signature(a) == Signature(b) {
      Text.LeadingWordIsDetermined(MethodText(a.httpMethod), MethodText(b.httpMethod), Described(a), Described(b));
    }
  }

  /**
   * With a fresh cache the signature depends only on method, URI, content
   * string and headers: options that differ in response or call count collide.
   */
  lemma SignatureIgnoresResponseAndCount(a: Options, b: Options)
    requires CacheFresh(a) && CacheFresh(b)
    requires a.httpMethod == b.httpMethod && a.requestUri == b.requestUri && a.headers == b.headers
    requires a.content.Some? == b.content.Some?
    requires a.content.Some? ==> a.content.value.text == b.content.value.text
    ensures Signature(a) == Signature(b)
  {
  }

  /** Null headers and an empty header dictionary render alike. */
  lemma NullAndEmptyHeadersRenderAlike(o: Options)
    ensures Signature(o.(headers := None)) == Signature(o.(headers := Some([])))
  {
  }
}

=== FILE: wrappers.dfy ===
/** Nullable references and thrown exceptions, as values. */
module Wrappers {

  /** A .NET reference that may be null: `None` is null. */
  datatype Option<+T> = None | Some(value: T)

  /** The result of a call that either returns a value or throws. */
  datatype Result<+T, +E> = Success(value: T) | Failure(error: E)
}
